=== FILE: README.md ===
# Connection catalog of mongotron, modelled in Dafny

The connection repository of mongotron keeps the user's saved MongoDB
connections in one JSON file. Each connection record has an `id`, a `name`, a
`host`, a `port` and a list of database records. A database record has a
`name` and an optional `auth` block with credentials. The repository offers
three operations:

- `list` reads the file and maps each record to a `Connection` entity.
- `create` reads, appends one new connection, and writes the whole list back.
- `delete` reads, removes the first connection with the given identifier, and
  writes the whole list back.

Two mappings sit between the file and the entities:

- Loading copies each connection's `id`, `name`, `host` and `port`. It gives
  every database entity its parent's host and port. It copies the database's
  `auth` block verbatim.
- Saving writes the minimal shape. A database record keeps only its `name`.
  When the database has credentials, it also gets an `auth` block, and that
  block's `id` is the database's identifier.

Whenever an identifier is falsy (absent or `""`), both mappings draw a fresh
one from `uuid.v4()`.

The model is purely functional:

- `ConfigRecords` holds the on-disk shape, and `Entities` holds the in-memory
  entities. Each JSON field that may be absent is an `Option`.
- `Ids` replaces `uuid.v4()` with a counter. The k-th draw is `Uuid(k)`, and
  `Uuid` is proved injective. Every operation takes the counter `next` and
  returns the advanced counter.
- `Mapper` has the two mappings, each specified by an independent predicate:
  `Loaded` for loading and `Saved` for saving. Both mappings also promise that
  the identifiers they draw are pairwise different, because the application
  relies on entity identifiers being unique (lines 139-143). Saving draws only
  for entities with a falsy identifier. Every entity that `create` and `delete`
  save has a non-empty one, so in the repository those save-side draws never
  happen.
- `RoundTrip` composes the two mappings. It defines `Rewritten`, which says what
  a load-then-save cycle does to a stored record.
- `ConfigFile` models what reading the file yields. `Repository.WriteConfigFile`
  models how `writeConfigFile` settles (lines 96-103): it rejects with the write
  error or resolves, and `ConfigFile.Written` is what a later read then sees.
  `Repository` has `List`, `Create` and `Delete`. Each returns an `Outcome`: how the promise settles,
  the list handed to `writeConfigFile` (if the promise chain reached it), and
  the counter afterwards.
- `CatalogProperties` relates several operations. It covers the
  identifier-uniqueness invariant, deleting twice, creating twice, listing
  twice, and the create/list/delete walkthrough.

Three behaviours of the repository are easy to miss:

- A missing file is a read error like any other, and `list`, `create` and
  `delete` reject with it. Only the parser's "Unexpected end of input" is
  tolerated (line 90).
- The `auth.id` written for a database is the database's own identifier (line
  157), not the identifier of the stored auth block. Saving never writes
  database identifiers, so the next load draws new ones. The written `auth.id`
  therefore changes at every `create` (`CatalogProperties.CreateRegeneratesAuthId`)
  and at every `delete` (the `Rewritten` clause of `Repository.Delete`, whose
  `auth.id` is kept from a truthy stored database id and otherwise drawn
  during the call).
- Identifiers that `list` draws for records that lack one are never
  persisted. The next `create` or `delete` loads the file again, draws
  different identifiers, and persists those (the `Rewritten` clauses of
  `Repository.Create` and `Repository.Delete`,
  `CatalogProperties.CreateKeepsUniqueIds`). So a `delete` of an identifier
  that `list` drew finds nothing (`CatalogProperties.ListedIdNotPersisted`).

## Model

| member | source | states |
|---|---|---|
| Ids.UuidInjective | src/lib/modules/connection/repository.js:35 | two different draws of the identifier generator never give the same identifier |
| Mapper.AddDatabasesFromConfig | src/lib/modules/connection/repository.js:119-127 | each stored database adds one entity at the end, in order; each entity keeps its stored id when truthy and otherwise gets a fresh one, and has the stored name, the parent record's host and port, and the stored auth block unchanged; the connection's other fields are untouched; the drawn database ids are pairwise different |
| Mapper.LoadDatabases | src/lib/modules/connection/repository.js:119-126 | one database entity per stored database, in order, each keeping its stored id when truthy and otherwise drawing one, with the stored name and auth block and the parent's host and port; the identifiers drawn for stored databases without one are pairwise different |
| Mapper.FromConfig | src/lib/modules/connection/repository.js:111-130 | the entity satisfies `Loaded`: id kept when truthy, otherwise the first draw; name, host and port copied; one database per stored database, in order, with the parent's host and port and the stored auth block; every identifier drawn in the load, the connection's and its databases', differs from every other |
| Mapper.FromConfigs | src/lib/modules/connection/repository.js:105-109 | length and order are kept; each entity is `Loaded` from the record at the same position; every identifier drawn in the load, for a connection or a database, differs from every other one, within a record and across records |
| Mapper.ToDatabaseConfig | src/lib/modules/connection/repository.js:150-164 | the written database record has only `name` (no id, host or port); it has `auth` exactly when the entity does; `auth.id` is the database's id (a fresh id if that is falsy); username and password come from the entity's auth |
| Mapper.ToDatabaseConfigs | src/lib/modules/connection/repository.js:150-164 | one written database record per entity database, in order, each as in `ToDatabaseConfig`; the `auth.id`s drawn for databases with credentials and a falsy id are pairwise different |
| Mapper.ToConfig | src/lib/modules/connection/repository.js:138-166 | the written record always has an id (the entity's own when truthy, otherwise a fresh one), copies name, host and port, and has one database record per entity database, each `DatabaseSaved`; the connection id, when drawn, is the first draw and differs from every `auth.id` drawn for its databases |
| Mapper.ToConfigs | src/lib/modules/connection/repository.js:132-136 | length and order are kept; each written record is `Saved` from the entity at the same position; every identifier drawn in the save, for a connection or an auth block, differs from every other one, within a record and across records |
| RoundTrip.LoadThenSave | src/lib/modules/connection/repository.js:145-160 | loading a stored record and saving the entity gives a record with an id (the stored one when truthy), the same name, host and port, the same database names in order, and auth blocks exactly where the stored ones were, with the same username and password |
| RoundTrip.RewriteKeepsRecords | src/lib/modules/connection/repository.js:105-136 | loading the whole stored list and saving it again keeps its length and order and rewrites each record as `LoadThenSave` states |
| RoundTrip.SaveThenLoad | src/lib/modules/connection/repository.js:111-166 | saving entities that have non-empty ids and whose databases carry their parent's host and port, and loading them again, keeps length, order, connection ids, names, hosts, ports, database names, hosts and ports, the presence of credentials, and the usernames and passwords |
| ConfigFile.ReadConfigFile | src/lib/modules/connection/repository.js:87-94 | a read error rejects, carrying its message, exactly when it is not "Unexpected end of input"; parsed data is returned as is; a tolerated error or falsy data gives the empty list |
| ConfigFile.Written | src/lib/modules/connection/repository.js:96-103 | reading the file after a successful write gives back exactly the written list |
| Repository.List | src/lib/modules/connection/repository.js:61-64 | `list` never writes; it rejects exactly when the read does, with the read's error; otherwise it returns one `Loaded` entity per stored record, in order, and every identifier drawn for a connection or a database differs from every other one drawn by that call |
| Repository.CreateConnection | src/lib/modules/connection/repository.js:168-180 | the new entity takes id, name, host and port from the options and has exactly one database: a fresh id, the options' `databaseName`, host, port and auth |
| Repository.Create | src/lib/modules/connection/repository.js:26-56 | absent options reject with `InternalServiceError` with no read, no write and no draw; a read error rejects without writing; otherwise the written list is the rewritten stored list followed by one new record, so its length grows by exactly one; the new record's id is the first draw, not the caller's id, and it holds exactly one database named `databaseName`; ids assigned to stored records that had none are pairwise different; the promise resolves with that entity exactly when the write succeeds; the entity's database id is drawn during the call, differs from the connection id, and is the `auth.id` written for it when the options carry credentials |
| Repository.CreateWrites | src/lib/modules/connection/repository.js:35-47 | the list `create` writes is each loaded-and-saved stored record followed by the `NewRecord` for the options, whose `auth.id` is the new database entity's id |
| Repository.IndexOfId | src/lib/modules/connection/repository.js:184-189 | returns no position exactly when no connection has the identifier; otherwise the position of the first one that has it |
| Repository.RemoveConnection | src/lib/modules/connection/repository.js:182-197 | rejects with "Connection not found" exactly when no connection has the identifier; otherwise removes only the first matching connection and keeps the others in order |
| Repository.Delete | src/lib/modules/connection/repository.js:70-84 | a read error rejects without writing; it writes exactly when some loaded connection has the identifier, and otherwise rejects with "Connection not found" and writes nothing; the written list is one shorter and is the rewritten stored list without the record at the first matching position, order kept; it resolves exactly when the write succeeds |
| Repository.DeleteWrites | src/lib/modules/connection/repository.js:73-78 | the list `delete` writes is the loaded-and-saved stored records before the first match and after it, in order |
| CatalogProperties.LoadedIdsUnique | src/lib/modules/connection/repository.js:111-117 | when the stored truthy ids are unique and are not future draws, all loaded connection ids are pairwise different and none is a future draw |
| CatalogProperties.SavedIds | src/lib/modules/connection/repository.js:146 | entities with truthy ids are written with exactly those ids |
| CatalogProperties.CreateKeepsUniqueIds | src/lib/modules/connection/repository.js:35-47 | after a `create` that writes, every record has a truthy id and all ids are unique, the new one included |
| CatalogProperties.DeleteKeepsUniqueIds | src/lib/modules/connection/repository.js:70-78 | after a `delete` that writes, every record has a truthy id, all ids are unique, and no record keeps the deleted id |
| CatalogProperties.RemainingIdsUnique | src/lib/modules/connection/repository.js:188-190 | splicing out the first match from a list of unique ids leaves unique ids, none equal to the removed one |
| CatalogProperties.DeleteTwiceNotFound | src/lib/modules/connection/repository.js:184-193 | on a file whose stored ids are unique and not future draws, when a stored record carries the id, `delete` of it resolves and the file is one record shorter; a second `delete` of the same id rejects with "Connection not found" and writes nothing |
| CatalogProperties.DeleteStoredId | src/lib/modules/connection/repository.js:70-84 | when a stored record carries the identifier, `delete` writes and, with no write fault, resolves |
| CatalogProperties.DeleteMissingId | src/lib/modules/connection/repository.js:184-193 | on a file whose records all have identifiers and none has the given one, `delete` rejects with "Connection not found" and writes nothing |
| CatalogProperties.CreateTwiceDistinct | src/lib/modules/connection/repository.js:35 | on a readable file, a `create` with no write fault resolves, and a second `create` on the file it wrote that also resolves gives a connection with a different id |
| CatalogProperties.CreateIgnoresCallerId | src/lib/modules/connection/repository.js:35 | neither the returned entity nor the written record keeps the caller's `options.id`, unless the generator itself would produce it |
| CatalogProperties.ListIdentified | src/lib/modules/connection/repository.js:111-127 | listing a file whose records all have truthy ids reports exactly those ids, in order, with names, hosts, ports and database names unchanged |
| CatalogProperties.CreateOnIdentified | src/lib/modules/connection/repository.js:35-47 | `create` on a file whose records all have truthy ids writes them back with the same ids, names, hosts, ports and database names, followed by the new record with the first draw as its id and exactly one database named `databaseName` |
| CatalogProperties.CreateRegeneratesAuthId | src/lib/modules/connection/repository.js:35-47 | a stored database record without an id whose auth block is present gets, in the list `create` writes, an `auth.id` drawn during that call, so it differs from any earlier auth id that is not a future draw |
| CatalogProperties.ListedDatabaseDrawsDistinct | src/lib/modules/connection/repository.js:119-121 | two database entities returned by `list` whose stored records lack an id have different ids, in the same connection or in two different ones |
| CatalogProperties.ListedIdNotPersisted | src/lib/modules/connection/repository.js:70-78 | when the stored ids are not future draws, an id that `list` drew for a record without one is not found by the next `delete`, which rejects with "Connection not found" and writes nothing |
| CatalogProperties.ListTwice | src/lib/modules/connection/repository.js:111-127 | two `list` calls with no write between them agree on length, order, names, hosts, ports, the number of databases per connection, and databases' names, hosts, ports and auth blocks; a connection, and likewise each of its databases, keeps its id across the two calls exactly when its stored id is truthy |
| CatalogProperties.CreateListDeleteScenario | src/lib/modules/connection/repository.js:26-84 | from an empty catalog: `create` of "db1" with database "mydb", then `list` shows exactly that connection with one database "mydb", then `delete` of its id writes the empty list, and `list` returns nothing |
| CatalogProperties.CreateTwiceScenario | src/lib/modules/connection/repository.js:26-64 | two `create` calls with the same options on an empty catalog, then `list`, give two connections with different ids and the same name, host, port and single database name |

## Left out

- File I/O: `jsonfile`, the file path at line 12, and JSON parsing are not
  modelled. A file is its parsed content or a read error. Writing and then
  reading gives back the written list.
- Failed writes: the model reports the write error and the list that was
  attempted. It says nothing about the file's content after a failed write,
  which the source leaves undetermined.
- Randomness of `uuid.v4()`: replaced by an injective counter. That a stored
  identifier never equals a later draw is an explicit hypothesis
  (`Ids.NotFuture`, used by `CatalogProperties.UniqueIds`), not a proved fact.
- Promises and bluebird chaining: each operation is one function from inputs
  to an `Outcome`.
- `lib/entities/connection` and `lib/errors` are not part of this model. Their
  behaviour is assumed as follows:
  - A `Connection` entity holds id, name, host, port and databases.
  - `addDatabase` appends.
  - `new Connection(options)` takes id, name, host and port, and starts with no
    databases.
  - Errors are identified by their class and message.
- Concurrency: interleaved `create`/`delete` calls, and the lost update they
  cause, are not modelled. Each operation runs alone.
- Repository.Create: the caller's `options` object keeps the overwritten `id`
  after the call. The model returns only the entity, so this side effect on
  the argument is not observable.
- Malformed file content is not modelled: a top-level JSON value that is
  truthy but not an array, where `.map` would throw, and an `auth` value that
  is present but falsy, such as `""`. Any present auth block counts as truthy.
- Repository.Delete: the identifier argument is a string. An `undefined`
  argument, which matches no entity, is not modelled separately.

=== FILE: config_file.dfy ===
/** Errors the repository rejects with, and the read side of the JSON file. */
module Errors {
  /** `InternalServiceError` is the application's own error class; `PlainError`
      is a bare JavaScript `Error`; `IoError` is whatever the JSON file
      utility reported, passed on unchanged. */
  datatype Error =
    | InternalServiceError(message: string)
    | PlainError(message: string)
    | IoError(message: string)
}

module ConfigFile {
  import opened Wrappers
  import opened ConfigRecords
  import opened Errors

  /** What reading the JSON file yields: parsed content, which may be a falsy
      JSON value (`None`), or a read error with its message. A missing file
      is a read error like any other. */
  datatype FileState =
    | Contents(data: Option<seq<ConnectionConfig>>)
    | Unreadable(message: string)

  /** The one read error that is tolerated: the parser's report of empty input. */
  const UnexpectedEndOfInput := "Unexpected end of input"

  /** `readConfigFile`: a read error rejects unless it is the empty-input
      report; missing or falsy data reads as the empty catalog. */
  function ReadConfigFile(f: FileState): (r: Result<seq<ConnectionConfig>, Error>)
    ensures r.Err? <==> f.Unreadable? && f.message != UnexpectedEndOfInput
    ensures r.Err? ==> r.error == IoError(f.message)
    ensures r.Ok? && f.Contents? && f.data.Some? ==> r.value == f.data.value
    ensures r.Ok? && !(f.Contents? && f.data.Some?) ==> r.value == []
  {
    match f
    case Unreadable(message) =>
      if message != UnexpectedEndOfInput then Err(IoError(message)) else Ok([])
    case Contents(data) =>
      if data.Some? then Ok(data.value) else Ok([])
  }

  /** The file after `writeConfigFile(records)` succeeded. */
  function Written(records: seq<ConnectionConfig>): (f: FileState)
    ensures ReadConfigFile(f) == Ok(records)
  {
    Contents(Some(records))
  }
}

=== FILE: ids.dfy ===
/** Identifier generation and JavaScript truthiness of identifiers.

    The repository draws identifiers from `uuid.v4()`. The model replaces that
    random source with a counter: the k-th identifier ever drawn is `Uuid(k)`,
    and a caller threads the counter `next` through every operation. `Uuid` is
    injective, so two draws never collide; whether a stored identifier can
    collide with a future draw is stated explicitly with `NotFuture`. */
module Ids {
  import opened Wrappers

  /** JavaScript truthiness of an optional string: absent and "" are falsy. */
  predicate Truthy(s: Option<string>) {
    s.Some? && s.value != ""
  }

  function DigitChar(d: nat): char
    requires d < 10
  {
    "0123456789"[d]
  }

  function DigitValue(c: char): nat {
    if '0' <= c <= '9' then (c as int - '0' as int) as nat else 0
  }

  /** Decimal spelling of a natural number, most significant digit first. */
  function Decimal(n: nat): (s: string)
    ensures |s| >= 1
    ensures forall i :: 0 <= i < |s| ==> '0' <= s[i] <= '9'
  {
    if n < 10 then [DigitChar(n)] else Decimal(n / 10) + [DigitChar(n % 10)]
  }

  /** Reads a string of decimal digits back as a number. */
  function ParseDecimal(s: string): nat {
    if |s| == 0 then 0 else ParseDecimal(s[..|s| - 1]) * 10 + DigitValue(s[|s| - 1])
  }

  lemma {:induction false} DecimalRoundTrip(n: nat)
    ensures ParseDecimal(Decimal(n)) == n
  {
    if n >= 10 {
      var s := Decimal(n);
      assert s[..|s| - 1] == Decimal(n / 10);
      assert DigitValue(s[|s| - 1]) == n % 10;
      DecimalRoundTrip(n / 10);
    }
  }

  /** The k-th identifier drawn from the generator. */
  function Uuid(k: nat): (id: string)
    ensures id != ""
  {
    "uuid-" + Decimal(k)
  }

  /** Two different draws never produce the same identifier. */
  lemma UuidInjective(a: nat, b: nat)
    ensures Uuid(a) == Uuid(b) <==> a == b
  {
    if Uuid(a) == Uuid(b) {
      assert Uuid(a)[5..] == Decimal(a);
      assert Uuid(b)[5..] == Decimal(b);
      DecimalRoundTrip(a);
      DecimalRoundTrip(b);
    }
  }

  /** `id` was produced by one of the draws `lo`, ..., `hi - 1`. */
  ghost predicate DrawnIn(id: string, lo: nat, hi: nat) {
    exists k: nat :: lo <= k < hi && Uuid(k) == id
  }

  /** `id` can never be produced by a draw numbered `next` or later. */
  ghost predicate NotFuture(id: string, next: nat) {
    forall k: nat :: next <= k ==> Uuid(k) != id
  }

  /** An identifier drawn before `hi` is not one of the draws from `hi` on. */
  lemma DrawnIsNotFuture(id: string, lo: nat, hi: nat, next: nat)
    requires DrawnIn(id, lo, hi)
    requires hi <= next
    ensures NotFuture(id, next)
  {
    var k: nat :| lo <= k < hi && Uuid(k) == id;
    forall j: nat | next <= j
      ensures Uuid(j) != id
    {
      UuidInjective(j, k);
    }
  }

  /** Identifiers drawn from disjoint ranges are different. */
  lemma DisjointDrawsDiffer(a: string, b: string, lo1: nat, hi1: nat, lo2: nat, hi2: nat)
    requires DrawnIn(a, lo1, hi1)
    requires DrawnIn(b, lo2, hi2)
    requires hi1 <= lo2
    ensures a != b
  {
    DrawnIsNotFuture(a, lo1, hi1, lo2);
  }

  /** A value together with the generator counter after producing it. */
  datatype Supplied<+T> = Supplied(value: T, next: nat)

  /** JavaScript's `id || uuid.v4()`: keep a truthy identifier, otherwise draw
      one; the generator is consulted only when the identifier is falsy. */
  function OrFresh(id: Option<string>, next: nat): (r: Supplied<string>)
    ensures r.value != ""
    ensures Truthy(id) ==> r == Supplied(id.value, next)
    ensures !Truthy(id) ==> r == Supplied(Uuid(next), next + 1)
  {
    if Truthy(id) then Supplied(id.value, next) else Supplied(Uuid(next), next + 1)
  }
}

=== FILE: mapper.dfy ===
/** The two mappings of the repository: stored records to connection entities
    (`generateConnectionInstanceFromConfig`) and entities back to the minimal
    stored shape (`convertConnectionInstanceIntoConfig`). Both draw fresh
    identifiers, so both take and return the generator counter. */
module Mapper {
  import opened Wrappers
  import opened Ids
  import opened ConfigRecords
  import opened Entities

  /** `id` is what `stored || uuid.v4()` gives when the draw is one of lo..hi-1. */
  ghost predicate KeptOrDrawn(id: string, stored: Option<string>, lo: nat, hi: nat) {
    && id != ""
    && (Truthy(stored) ==> id == stored.value)
    && (!Truthy(stored) ==> DrawnIn(id, lo, hi))
  }

  // ---------------------------------------------------------------- load

  /** A database entity built from stored database record `cfg` under stored connection `parent`. */
  ghost predicate DatabaseLoaded(d: Database, cfg: DatabaseConfig, parent: ConnectionConfig, lo: nat, hi: nat) {
    && KeptOrDrawn(d.id, cfg.id, lo, hi)
    && d.name == cfg.name
    && d.host == parent.host
    && d.port == parent.port
    && d.auth == cfg.auth
  }

  /** A connection entity built from stored record `cfg`: fields copied, identifiers
      kept or drawn, one database entity per stored database, in order. */
  ghost predicate Loaded(c: Connection, cfg: ConnectionConfig, lo: nat, hi: nat) {
    && KeptOrDrawn(c.id, cfg.id, lo, hi)
    && c.name == cfg.name
    && c.host == cfg.host
    && c.port == cfg.port
    && |c.databases| == |cfg.databases|
    && forall j :: 0 <= j < |cfg.databases| ==> DatabaseLoaded(c.databases[j], cfg.databases[j], cfg, lo, hi)
  }

  lemma DrawnInWiden(id: string, lo: nat, hi: nat, lo': nat, hi': nat)
    requires DrawnIn(id, lo, hi)
    requires lo' <= lo && hi <= hi'
    ensures DrawnIn(id, lo', hi')
  {
    var k: nat :| lo <= k < hi && Uuid(k) == id;
    assert lo' <= k < hi' && Uuid(k) == id;
  }

  lemma LoadedWiden(c: Connection, cfg: ConnectionConfig, lo: nat, hi: nat, lo': nat, hi': nat)
    requires Loaded(c, cfg, lo, hi)
    requires lo' <= lo && hi <= hi'
    ensures Loaded(c, cfg, lo', hi')
  {
    if !Truthy(cfg.id) {
      DrawnInWiden(c.id, lo, hi, lo', hi');
    }
    forall j | 0 <= j < |cfg.databases|
      ensures DatabaseLoaded(c.databases[j], cfg.databases[j], cfg, lo', hi')
    {
      if !Truthy(cfg.databases[j].id) {
        DrawnInWiden(c.databases[j].id, lo, hi, lo', hi');
      }
    }
  }

  lemma DatabasesLoadedWiden(ds: seq<Database>, dbs: seq<DatabaseConfig>, parent: ConnectionConfig,
                             lo: nat, hi: nat, lo': nat, hi': nat)
    requires |ds| == |dbs|
    requires forall j :: 0 <= j < |dbs| ==> DatabaseLoaded(ds[j], dbs[j], parent, lo, hi)
    requires lo' <= lo && hi <= hi'
    ensures forall j :: 0 <= j < |dbs| ==> DatabaseLoaded(ds[j], dbs[j], parent, lo', hi')
  {
    forall j | 0 <= j < |dbs|
      ensures DatabaseLoaded(ds[j], dbs[j], parent, lo', hi')
    {
      assert DatabaseLoaded(ds[j], dbs[j], parent, lo, hi);
      if !Truthy(dbs[j].id) {
        DrawnInWiden(ds[j].id, lo, hi, lo', hi');
      }
    }
  }

  /** The identifiers drawn for the stored databases `dbs` that lack one,
      which became `ds[0]`, `ds[1]`, ..., are pairwise different. */
  ghost predicate DatabaseDrawsDistinct(ds: seq<Database>, dbs: seq<DatabaseConfig>) {
    && |dbs| <= |ds|
    && forall i, j :: 0 <= i < j < |dbs| && !Truthy(dbs[i].id) && !Truthy(dbs[j].id) ==> ds[i].id != ds[j].id
  }

  /** The object literal handed to `addDatabase` for stored database `cfg`:
      the identifier kept or drawn, the parent's host and port. */
  function LoadDatabase(cfg: DatabaseConfig, parent: ConnectionConfig, next: nat): (r: Supplied<Database>)
    ensures DatabaseLoaded(r.value, cfg, parent, next, r.next)
    ensures Truthy(cfg.id) ==> r.next == next
    ensures !Truthy(cfg.id) ==> r.next == next + 1 && r.value.id == Uuid(next)
  {
    var id := OrFresh(cfg.id, next);
    assert !Truthy(cfg.id) ==> next <= next < id.next && Uuid(next) == id.value;
    Supplied(Database(id.value, cfg.name, parent.host, parent.port, cfg.auth), id.next)
  }

  /** The step of `LoadDatabases`: the entity for the first stored database,
      followed by those loaded from the following draws. */
  lemma DatabasesLoadedCons(d: Database, rest: seq<Database>, dbs: seq<DatabaseConfig>, parent: ConnectionConfig,
                            lo: nat, mid: nat, hi: nat)
    requires |dbs| == |rest| + 1
    requires lo <= mid <= hi
    requires DatabaseLoaded(d, dbs[0], parent, lo, mid)
    requires forall j :: 0 <= j < |rest| ==> DatabaseLoaded(rest[j], dbs[1..][j], parent, mid, hi)
    ensures forall j :: 0 <= j < |dbs| ==> DatabaseLoaded(([d] + rest)[j], dbs[j], parent, lo, hi)
  {
    var all := [d] + rest;
    forall j | 0 <= j < |dbs|
      ensures DatabaseLoaded(all[j], dbs[j], parent, lo, hi)
    {
      if j == 0 {
        if !Truthy(dbs[0].id) {
          DrawnInWiden(d.id, lo, mid, lo, hi);
        }
      } else {
        assert all[j] == rest[j - 1] && dbs[j] == dbs[1..][j - 1];
        if !Truthy(dbs[j].id) {
          DrawnInWiden(rest[j - 1].id, mid, hi, lo, hi);
        }
      }
    }
  }

  /** The step of `LoadDatabases` for `DatabaseDrawsDistinct`: the identifier
      drawn for the first stored database comes before the draws of the
      following ones. */
  lemma DatabaseDrawsCons(d: Database, rest: seq<Database>, dbs: seq<DatabaseConfig>, parent: ConnectionConfig,
                          lo: nat, mid: nat, hi: nat)
    requires |dbs| == |rest| + 1
    requires !Truthy(dbs[0].id) ==> DrawnIn(d.id, lo, mid)
    requires forall j :: 0 <= j < |rest| && !Truthy(dbs[1..][j].id) ==> DrawnIn(rest[j].id, mid, hi)
    requires DatabaseDrawsDistinct(rest, dbs[1..])
    ensures DatabaseDrawsDistinct([d] + rest, dbs)
  {
    var all := [d] + rest;
    if !Truthy(dbs[0].id) {
      forall j | 0 <= j < |rest| && !Truthy(dbs[1..][j].id)
        ensures d.id != rest[j].id
      {
        DisjointDrawsDiffer(d.id, rest[j].id, lo, mid, mid, hi);
      }
    }
    forall i, j | 0 <= i < j < |dbs| && !Truthy(dbs[i].id) && !Truthy(dbs[j].id)
      ensures all[i].id != all[j].id
    {
      assert all[j] == rest[j - 1] && dbs[j] == dbs[1..][j - 1];
      if i > 0 {
        assert all[i] == rest[i - 1] && dbs[i] == dbs[1..][i - 1];
      }
    }
  }

  /** The objects the `_.each(connectionConfig.databases, ...)` loop hands to
      `addDatabase`, one per stored database, in order. Every identifier the
      loop draws differs from every other one. */
  function LoadDatabases(dbs: seq<DatabaseConfig>, parent: ConnectionConfig, next: nat): (r: Supplied<seq<Database>>)
    ensures next <= r.next
    ensures |r.value| == |dbs|
    ensures forall j :: 0 <= j < |dbs| ==> DatabaseLoaded(r.value[j], dbs[j], parent, next, r.next)
    ensures DatabaseDrawsDistinct(r.value, dbs)
    decreases |dbs|
  {
    if |dbs| == 0 then Supplied([], next)
    else
      var d := LoadDatabase(dbs[0], parent, next);
      var rest := LoadDatabases(dbs[1..], parent, d.next);
      DatabasesLoadedCons(d.value, rest.value, dbs, parent, next, d.next, rest.next);
      assert forall j :: 0 <= j < |rest.value| && !Truthy(dbs[1..][j].id) ==> DrawnIn(rest.value[j].id, d.next, rest.next) by {
        forall j | 0 <= j < |rest.value| && !Truthy(dbs[1..][j].id)
          ensures DrawnIn(rest.value[j].id, d.next, rest.next)
        {
          assert DatabaseLoaded(rest.value[j], dbs[1..][j], parent, d.next, rest.next);
        }
      }
      DatabaseDrawsCons(d.value, rest.value, dbs, parent, next, d.next, rest.next);
      Supplied([d.value] + rest.value, rest.next)
  }

  /** One `addDatabase` call per entity, in order. */
  function AddDatabases(conn: Connection, ds: seq<Database>): (r: Connection)
    ensures r == conn.(databases := conn.databases + ds)
    decreases |ds|
  {
    if |ds| == 0 then
      assert conn.databases + ds == conn.databases;
      conn
    else
      assert conn.databases + ds == (conn.databases + [ds[0]]) + ds[1..];
      AddDatabases(AddDatabase(conn, ds[0]), ds[1..])
  }

  /** The `_.each(connectionConfig.databases, ...)` loop: one `addDatabase` per
      stored database, in order, with the host and port of the stored parent.
      The loop draws only for stored databases without an identifier, and
      those draws are pairwise different. */
  function AddDatabasesFromConfig(conn: Connection, dbs: seq<DatabaseConfig>, parent: ConnectionConfig, next: nat)
    : (r: Supplied<Connection>)
    ensures next <= r.next
    ensures r.value.(databases := conn.databases) == conn
    ensures |r.value.databases| == |conn.databases| + |dbs|
    ensures r.value.databases[..|conn.databases|] == conn.databases
    ensures forall j :: 0 <= j < |dbs| ==>
      DatabaseLoaded(r.value.databases[|conn.databases| + j], dbs[j], parent, next, r.next)
    ensures DatabaseDrawsDistinct(r.value.databases[|conn.databases|..], dbs)
  {
    var ds := LoadDatabases(dbs, parent, next);
    var c := AddDatabases(conn, ds.value);
    assert c.databases[|conn.databases|..] == ds.value;
    Supplied(c, ds.next)
  }

  /** `id` was drawn while loading stored record `cfg` into `c`: it is the
      connection's identifier and the stored one is falsy, or it is a
      database's identifier and the stored database's one is falsy. */
  ghost predicate DrawnFor(id: string, c: Connection, cfg: ConnectionConfig) {
    || (!Truthy(cfg.id) && c.id == id)
    || exists j :: 0 <= j < |cfg.databases| && j < |c.databases| && !Truthy(cfg.databases[j].id) && c.databases[j].id == id
  }

  /** Every identifier drawn while loading `cfg` into `c` differs from every
      other one drawn in that load: the connection's and its databases'. */
  ghost predicate LoadDrawsDistinct(c: Connection, cfg: ConnectionConfig) {
    && DatabaseDrawsDistinct(c.databases, cfg.databases)
    && (!Truthy(cfg.id) ==>
          forall j :: 0 <= j < |cfg.databases| && !Truthy(cfg.databases[j].id) ==> c.databases[j].id != c.id)
  }

  /** No identifier drawn while loading `cfg1` into `c1` is one drawn while
      loading `cfg2` into `c2`. */
  ghost predicate LoadDrawsDisjoint(c1: Connection, cfg1: ConnectionConfig, c2: Connection, cfg2: ConnectionConfig) {
    forall id :: DrawnFor(id, c1, cfg1) ==> !DrawnFor(id, c2, cfg2)
  }

  /** Every identifier drawn while loading a list of stored records differs
      from every other one drawn in that load, within a record and across records. */
  ghost predicate AllDrawsDistinct(cs: seq<Connection>, cfgs: seq<ConnectionConfig>) {
    && |cs| == |cfgs|
    && (forall i :: 0 <= i < |cfgs| ==> LoadDrawsDistinct(cs[i], cfgs[i]))
    && (forall i, j :: 0 <= i < j < |cfgs| ==> LoadDrawsDisjoint(cs[i], cfgs[i], cs[j], cfgs[j]))
  }

  /** An identifier drawn while loading a record came from that load's draws. */
  lemma DrawnForIn(id: string, c: Connection, cfg: ConnectionConfig, lo: nat, hi: nat)
    requires Loaded(c, cfg, lo, hi)
    ensures DrawnFor(id, c, cfg) ==> DrawnIn(id, lo, hi)
  {
    if DrawnFor(id, c, cfg) && !(!Truthy(cfg.id) && c.id == id) {
      var j :| 0 <= j < |cfg.databases| && j < |c.databases| && !Truthy(cfg.databases[j].id) && c.databases[j].id == id;
      assert DatabaseLoaded(c.databases[j], cfg.databases[j], cfg, lo, hi);
    }
  }

  /** Records loaded from disjoint ranges of draws have disjoint drawn identifiers. */
  lemma DisjointLoads(c1: Connection, cfg1: ConnectionConfig, lo1: nat, hi1: nat,
                      c2: Connection, cfg2: ConnectionConfig, lo2: nat, hi2: nat)
    requires Loaded(c1, cfg1, lo1, hi1)
    requires Loaded(c2, cfg2, lo2, hi2)
    requires hi1 <= lo2
    ensures LoadDrawsDisjoint(c1, cfg1, c2, cfg2)
  {
    forall id | DrawnFor(id, c1, cfg1)
      ensures !DrawnFor(id, c2, cfg2)
    {
      DrawnForIn(id, c1, cfg1, lo1, hi1);
      DrawnIsNotFuture(id, lo1, hi1, lo2);
      DrawnForIn(id, c2, cfg2, lo2, hi2);
    }
  }

  /** `generateConnectionInstanceFromConfig`: the connection identifier is kept
      or drawn first, then each database is added. */
  function FromConfig(cfg: ConnectionConfig, next: nat): (r: Supplied<Connection>)
    ensures next <= r.next
    ensures Loaded(r.value, cfg, next, r.next)
    ensures !Truthy(cfg.id) ==> r.value.id == Uuid(next)
    ensures LoadDrawsDistinct(r.value, cfg)
  {
    var id := OrFresh(cfg.id, next);
    var conn := Connection(id.value, cfg.name, cfg.host, cfg.port, []);
    var r := AddDatabasesFromConfig(conn, cfg.databases, cfg, id.next);
    AddedToEmpty(conn, r.value, cfg.databases, cfg, id.next, r.next);
    FromConfigSteps(cfg, r.value, next, id.next, r.next);
    r
  }

  /** `AddDatabasesFromConfig` on a connection entity with no databases: the
      added entities are all of them, indexed from the start. */
  lemma AddedToEmpty(conn: Connection, c: Connection, dbs: seq<DatabaseConfig>, parent: ConnectionConfig, lo: nat, hi: nat)
    requires conn.databases == []
    requires c.(databases := conn.databases) == conn
    requires |c.databases| == |conn.databases| + |dbs|
    requires forall j :: 0 <= j < |dbs| ==> DatabaseLoaded(c.databases[|conn.databases| + j], dbs[j], parent, lo, hi)
    requires DatabaseDrawsDistinct(c.databases[|conn.databases|..], dbs)
    ensures c.id == conn.id && c.name == conn.name && c.host == conn.host && c.port == conn.port
    ensures |c.databases| == |dbs|
    ensures forall j :: 0 <= j < |dbs| ==> DatabaseLoaded(c.databases[j], dbs[j], parent, lo, hi)
    ensures DatabaseDrawsDistinct(c.databases, dbs)
  {
    assert c.(databases := conn.databases).id == c.id;
    assert c.databases[|conn.databases|..] == c.databases;
  }

  /** The proof of `FromConfig`: a connection entity with the record's name,
      host and port, the kept or first drawn identifier, and databases loaded
      from the following draws, is loaded from the record, and all its draws
      differ. */
  lemma FromConfigSteps(cfg: ConnectionConfig, c: Connection, lo: nat, mid: nat, hi: nat)
    requires Truthy(cfg.id) ==> c.id == cfg.id.value && mid == lo
    requires !Truthy(cfg.id) ==> c.id == Uuid(lo) && mid == lo + 1
    requires mid <= hi
    requires c.name == cfg.name && c.host == cfg.host && c.port == cfg.port
    requires |c.databases| == |cfg.databases|
    requires forall j :: 0 <= j < |cfg.databases| ==> DatabaseLoaded(c.databases[j], cfg.databases[j], cfg, mid, hi)
    requires DatabaseDrawsDistinct(c.databases, cfg.databases)
    ensures Loaded(c, cfg, lo, hi)
    ensures LoadDrawsDistinct(c, cfg)
  {
    assert KeptOrDrawn(c.id, cfg.id, lo, hi) by {
      if !Truthy(cfg.id) {
        assert lo <= lo < hi && Uuid(lo) == c.id;
      }
    }
    DatabasesLoadedWiden(c.databases, cfg.databases, cfg, mid, hi, lo, hi);
    ConnectionDrawFirst(c, cfg, lo, mid, hi);
  }

  /** The connection identifier is drawn before any database identifier, so
      it differs from each of them. */
  lemma ConnectionDrawFirst(c: Connection, cfg: ConnectionConfig, lo: nat, mid: nat, hi: nat)
    requires |c.databases| == |cfg.databases|
    requires !Truthy(cfg.id) ==> c.id == Uuid(lo) && mid == lo + 1
    requires forall j :: 0 <= j < |cfg.databases| ==> DatabaseLoaded(c.databases[j], cfg.databases[j], cfg, mid, hi)
    requires DatabaseDrawsDistinct(c.databases, cfg.databases)
    ensures LoadDrawsDistinct(c, cfg)
  {
    if !Truthy(cfg.id) {
      assert DrawnIn(c.id, lo, mid) by {
        assert lo <= lo < mid && Uuid(lo) == c.id;
      }
      forall j | 0 <= j < |cfg.databases| && !Truthy(cfg.databases[j].id)
        ensures c.databases[j].id != c.id
      {
        assert DatabaseLoaded(c.databases[j], cfg.databases[j], cfg, mid, hi);
        DisjointDrawsDiffer(c.id, c.databases[j].id, lo, mid, mid, hi);
      }
    }
  }

  /** Putting one loaded connection in front of a list loaded from the
      following draws gives a list loaded from the whole range of draws. */
  lemma LoadedCons(c: Connection, rest: seq<Connection>, cfgs: seq<ConnectionConfig>, lo: nat, mid: nat, hi: nat)
    requires |cfgs| == |rest| + 1
    requires lo <= mid <= hi
    requires Loaded(c, cfgs[0], lo, mid)
    requires forall i :: 0 <= i < |rest| ==> Loaded(rest[i], cfgs[1..][i], mid, hi)
    ensures forall i :: 0 <= i < |cfgs| ==> Loaded(([c] + rest)[i], cfgs[i], lo, hi)
  {
    var all := [c] + rest;
    forall i | 0 <= i < |cfgs|
      ensures Loaded(all[i], cfgs[i], lo, hi)
    {
      if i == 0 {
        LoadedWiden(c, cfgs[0], lo, mid, lo, hi);
      } else {
        assert all[i] == rest[i - 1] && cfgs[i] == cfgs[1..][i - 1];
        LoadedWiden(rest[i - 1], cfgs[1..][i - 1], mid, hi, lo, hi);
      }
    }
  }

  /** Identifiers drawn for connection records without one are pairwise different. */
  ghost predicate DrawnIdsDistinct(cs: seq<Connection>, cfgs: seq<ConnectionConfig>)
    requires |cs| == |cfgs|
  {
    forall i, j :: 0 <= i < j < |cfgs| && !Truthy(cfgs[i].id) && !Truthy(cfgs[j].id) ==> cs[i].id != cs[j].id
  }

  /** The connection identifiers drawn in a load are among its drawn
      identifiers, so they are pairwise different when those are. */
  lemma DrawnIdsFromAllDraws(cs: seq<Connection>, cfgs: seq<ConnectionConfig>)
    requires AllDrawsDistinct(cs, cfgs)
    ensures DrawnIdsDistinct(cs, cfgs)
  {
    forall i, j | 0 <= i < j < |cfgs| && !Truthy(cfgs[i].id) && !Truthy(cfgs[j].id)
      ensures cs[i].id != cs[j].id
    {
      assert DrawnFor(cs[i].id, cs[i], cfgs[i]);
      assert LoadDrawsDisjoint(cs[i], cfgs[i], cs[j], cfgs[j]);
    }
  }

  /** Putting one loaded connection in front of a list loaded from the
      following draws keeps every drawn identifier different from every other. */
  lemma AllDrawsCons(c: Connection, rest: seq<Connection>, cfg: ConnectionConfig, restCfgs: seq<ConnectionConfig>,
                     lo: nat, mid: nat, hi: nat)
    requires Loaded(c, cfg, lo, mid) && LoadDrawsDistinct(c, cfg)
    requires |rest| == |restCfgs|
    requires forall i :: 0 <= i < |rest| ==> Loaded(rest[i], restCfgs[i], mid, hi)
    requires AllDrawsDistinct(rest, restCfgs)
    ensures AllDrawsDistinct([c] + rest, [cfg] + restCfgs)
  {
    var all := [c] + rest;
    var allCfgs := [cfg] + restCfgs;
    forall j | 0 <= j < |rest|
      ensures LoadDrawsDisjoint(c, cfg, rest[j], restCfgs[j])
    {
      DisjointLoads(c, cfg, lo, mid, rest[j], restCfgs[j], mid, hi);
    }
    forall i | 0 <= i < |allCfgs|
      ensures LoadDrawsDistinct(all[i], allCfgs[i])
    {
      if i > 0 {
        assert all[i] == rest[i - 1] && allCfgs[i] == restCfgs[i - 1];
      }
    }
    forall i, j | 0 <= i < j < |allCfgs|
      ensures LoadDrawsDisjoint(all[i], allCfgs[i], all[j], allCfgs[j])
    {
      assert all[j] == rest[j - 1] && allCfgs[j] == restCfgs[j - 1];
      if i > 0 {
        assert all[i] == rest[i - 1] && allCfgs[i] == restCfgs[i - 1];
      }
    }
  }

  /** `connectionConfigs.map(generateConnectionInstanceFromConfig)`. Every
      identifier drawn in the load, for a connection or a database, differs
      from every other one. */
  function FromConfigs(cfgs: seq<ConnectionConfig>, next: nat): (r: Supplied<seq<Connection>>)
    ensures next <= r.next
    ensures |r.value| == |cfgs|
    ensures forall i :: 0 <= i < |cfgs| ==> Loaded(r.value[i], cfgs[i], next, r.next)
    ensures AllDrawsDistinct(r.value, cfgs)
    decreases |cfgs|
  {
    if |cfgs| == 0 then Supplied([], next)
    else
      var c := FromConfig(cfgs[0], next);
      var rest := FromConfigs(cfgs[1..], c.next);
      LoadedCons(c.value, rest.value, cfgs, next, c.next, rest.next);
      assert cfgs == [cfgs[0]] + cfgs[1..];
      AllDrawsCons(c.value, rest.value, cfgs[0], cfgs[1..], next, c.next, rest.next);
      Supplied([c.value] + rest.value, rest.next)
  }

  // ---------------------------------------------------------------- save

  /** A stored database record written for entity `d`: only `name`, plus an
      auth block exactly when `d` has one, whose `id` is the database's own
      identifier (or a draw when that is falsy). */
  ghost predicate DatabaseSaved(w: DatabaseConfig, d: Database, lo: nat, hi: nat) {
    && w.id.None?
    && w.host.None?
    && w.port.None?
    && w.name == d.name
    && (w.auth.Some? <==> d.auth.Some?)
    && (d.auth.Some? ==>
          && w.auth.value.id.Some?
          && KeptOrDrawn(w.auth.value.id.value, Some(d.id), lo, hi)
          && w.auth.value.username == d.auth.value.username
          && w.auth.value.password == d.auth.value.password)
  }

  /** A stored connection record written for entity `c`. */
  ghost predicate Saved(w: ConnectionConfig, c: Connection, lo: nat, hi: nat) {
    && w.id.Some?
    && KeptOrDrawn(w.id.value, Some(c.id), lo, hi)
    && w.name == c.name
    && w.host == c.host
    && w.port == c.port
    && |w.databases| == |c.databases|
    && forall j :: 0 <= j < |c.databases| ==> DatabaseSaved(w.databases[j], c.databases[j], lo, hi)
  }

  lemma DatabaseSavedWiden(w: DatabaseConfig, d: Database, lo: nat, hi: nat, lo': nat, hi': nat)
    requires DatabaseSaved(w, d, lo, hi)
    requires lo' <= lo && hi <= hi'
    ensures DatabaseSaved(w, d, lo', hi')
  {
    if d.auth.Some? && !Truthy(Some(d.id)) {
      DrawnInWiden(w.auth.value.id.value, lo, hi, lo', hi');
    }
  }

  lemma SavedWiden(w: ConnectionConfig, c: Connection, lo: nat, hi: nat, lo': nat, hi': nat)
    requires Saved(w, c, lo, hi)
    requires lo' <= lo && hi <= hi'
    ensures Saved(w, c, lo', hi')
  {
    if !Truthy(Some(c.id)) {
      DrawnInWiden(w.id.value, lo, hi, lo', hi');
    }
    forall j | 0 <= j < |c.databases|
      ensures DatabaseSaved(w.databases[j], c.databases[j], lo', hi')
    {
      DatabaseSavedWiden(w.databases[j], c.databases[j], lo, hi, lo', hi');
    }
  }

  /** Saving database entity `d` draws an identifier: it has credentials and
      a falsy identifier, so `database.id || uuid.v4()` consults the generator. */
  predicate AuthDraw(d: Database) {
    d.auth.Some? && d.id == ""
  }

  /** The `auth.id`s drawn while saving the database entities `ds` as `ws`
      are pairwise different. */
  ghost predicate AuthDrawsDistinct(ws: seq<DatabaseConfig>, ds: seq<Database>) {
    && |ds| <= |ws|
    && forall i, j :: 0 <= i < j < |ds| && AuthDraw(ds[i]) && AuthDraw(ds[j]) && ws[i].auth.Some? && ws[j].auth.Some? ==>
         ws[i].auth.value.id != ws[j].auth.value.id
  }

  /** `id` was drawn while saving entity `c` as `w`: it is the written
      connection identifier and the entity's is falsy, or it is the `auth.id`
      written for a database that draws. */
  ghost predicate SavedDrawnFor(id: string, w: ConnectionConfig, c: Connection) {
    || (c.id == "" && w.id == Some(id))
    || exists j :: 0 <= j < |c.databases| && j < |w.databases| && AuthDraw(c.databases[j])
         && w.databases[j].auth.Some? && w.databases[j].auth.value.id == Some(id)
  }

  /** Every identifier drawn while saving `c` as `w` differs from every other
      one drawn in that save: the connection's and its databases' `auth.id`s. */
  ghost predicate SaveDrawsDistinct(w: ConnectionConfig, c: Connection) {
    && AuthDrawsDistinct(w.databases, c.databases)
    && (c.id == "" ==>
          forall j :: 0 <= j < |c.databases| && AuthDraw(c.databases[j]) && w.databases[j].auth.Some? ==>
            w.databases[j].auth.value.id != w.id)
  }

  /** No identifier drawn while saving `c1` as `w1` is one drawn while saving `c2` as `w2`. */
  ghost predicate SaveDrawsDisjoint(w1: ConnectionConfig, c1: Connection, w2: ConnectionConfig, c2: Connection) {
    forall id :: SavedDrawnFor(id, w1, c1) ==> !SavedDrawnFor(id, w2, c2)
  }

  /** Every identifier drawn while saving a list of entities differs from
      every other one drawn in that save, within a record and across records. */
  ghost predicate AllSaveDrawsDistinct(ws: seq<ConnectionConfig>, cs: seq<Connection>) {
    && |ws| == |cs|
    && (forall i :: 0 <= i < |cs| ==> SaveDrawsDistinct(ws[i], cs[i]))
    && (forall i, j :: 0 <= i < j < |cs| ==> SaveDrawsDisjoint(ws[i], cs[i], ws[j], cs[j]))
  }

  /** An identifier drawn while saving an entity came from that save's draws. */
  lemma SavedDrawnForIn(id: string, w: ConnectionConfig, c: Connection, lo: nat, hi: nat)
    requires Saved(w, c, lo, hi)
    ensures SavedDrawnFor(id, w, c) ==> DrawnIn(id, lo, hi)
  {
    if SavedDrawnFor(id, w, c) && !(c.id == "" && w.id == Some(id)) {
      var j :| 0 <= j < |c.databases| && j < |w.databases| && AuthDraw(c.databases[j])
                && w.databases[j].auth.Some? && w.databases[j].auth.value.id == Some(id);
      assert DatabaseSaved(w.databases[j], c.databases[j], lo, hi);
    }
  }

  /** Entities saved from disjoint ranges of draws have disjoint drawn identifiers. */
  lemma DisjointSaves(w1: ConnectionConfig, c1: Connection, lo1: nat, hi1: nat,
                      w2: ConnectionConfig, c2: Connection, lo2: nat, hi2: nat)
    requires Saved(w1, c1, lo1, hi1)
    requires Saved(w2, c2, lo2, hi2)
    requires hi1 <= lo2
    ensures SaveDrawsDisjoint(w1, c1, w2, c2)
  {
    forall id | SavedDrawnFor(id, w1, c1)
      ensures !SavedDrawnFor(id, w2, c2)
    {
      SavedDrawnForIn(id, w1, c1, lo1, hi1);
      DrawnIsNotFuture(id, lo1, hi1, lo2);
      SavedDrawnForIn(id, w2, c2, lo2, hi2);
    }
  }

  /** The callback of `connection.databases.map(...)` in `convertConnectionInstanceIntoConfig`. */
  function ToDatabaseConfig(d: Database, next: nat): (r: Supplied<DatabaseConfig>)
    ensures DatabaseSaved(r.value, d, next, r.next)
    ensures !AuthDraw(d) ==> r.next == next
    ensures AuthDraw(d) ==> r.next == next + 1 && r.value.auth.value.id == Some(Uuid(next))
  {
    if d.auth.Some? then
      var id := OrFresh(Some(d.id), next);
      assert !Truthy(Some(d.id)) ==> DrawnIn(id.value, next, id.next) by {
        if !Truthy(Some(d.id)) {
          assert next <= next < id.next && Uuid(next) == id.value;
        }
      }
      var auth := AuthConfig(Some(id.value), d.auth.value.username, d.auth.value.password);
      Supplied(DatabaseConfig(None, d.name, None, None, Some(auth)), id.next)
    else
      Supplied(DatabaseConfig(None, d.name, None, None, None), next)
  }

  /** The step of `ToDatabaseConfigs`: the record for the first entity,
      followed by those saved with the following draws. */
  lemma DatabasesSavedCons(w: DatabaseConfig, rest: seq<DatabaseConfig>, ds: seq<Database>, lo: nat, mid: nat, hi: nat)
    requires |ds| == |rest| + 1
    requires lo <= mid <= hi
    requires DatabaseSaved(w, ds[0], lo, mid)
    requires forall j :: 0 <= j < |rest| ==> DatabaseSaved(rest[j], ds[1..][j], mid, hi)
    ensures forall j :: 0 <= j < |ds| ==> DatabaseSaved(([w] + rest)[j], ds[j], lo, hi)
  {
    var all := [w] + rest;
    forall j | 0 <= j < |ds|
      ensures DatabaseSaved(all[j], ds[j], lo, hi)
    {
      if j == 0 {
        DatabaseSavedWiden(w, ds[0], lo, mid, lo, hi);
      } else {
        assert all[j] == rest[j - 1] && ds[j] == ds[1..][j - 1];
        DatabaseSavedWiden(rest[j - 1], ds[1..][j - 1], mid, hi, lo, hi);
      }
    }
  }

  /** The step of `ToDatabaseConfigs` for `AuthDrawsDistinct`: the `auth.id`
      drawn for the first entity comes before the draws for the following ones. */
  lemma AuthDrawsCons(w: DatabaseConfig, rest: seq<DatabaseConfig>, ds: seq<Database>, lo: nat, mid: nat, hi: nat)
    requires |ds| == |rest| + 1
    requires AuthDraw(ds[0]) ==> w.auth.Some? && w.auth.value.id.Some? && DrawnIn(w.auth.value.id.value, lo, mid)
    requires forall j :: 0 <= j < |rest| && AuthDraw(ds[1..][j]) ==>
      rest[j].auth.Some? && rest[j].auth.value.id.Some? && DrawnIn(rest[j].auth.value.id.value, mid, hi)
    requires AuthDrawsDistinct(rest, ds[1..])
    ensures AuthDrawsDistinct([w] + rest, ds)
  {
    var all := [w] + rest;
    if AuthDraw(ds[0]) {
      forall j | 0 <= j < |rest| && AuthDraw(ds[1..][j])
        ensures w.auth.value.id != rest[j].auth.value.id
      {
        DisjointDrawsDiffer(w.auth.value.id.value, rest[j].auth.value.id.value, lo, mid, mid, hi);
      }
    }
    forall i, j | 0 <= i < j < |ds| && AuthDraw(ds[i]) && AuthDraw(ds[j]) && all[i].auth.Some? && all[j].auth.Some?
      ensures all[i].auth.value.id != all[j].auth.value.id
    {
      assert all[j] == rest[j - 1] && ds[j] == ds[1..][j - 1];
      if i > 0 {
        assert all[i] == rest[i - 1] && ds[i] == ds[1..][i - 1];
      }
    }
  }

  /** `connection.databases.map(...)`: one record per database entity, in
      order. The `auth.id`s it draws are pairwise different. */
  function ToDatabaseConfigs(ds: seq<Database>, next: nat): (r: Supplied<seq<DatabaseConfig>>)
    ensures next <= r.next
    ensures |r.value| == |ds|
    ensures forall j :: 0 <= j < |ds| ==> DatabaseSaved(r.value[j], ds[j], next, r.next)
    ensures AuthDrawsDistinct(r.value, ds)
    decreases |ds|
  {
    if |ds| == 0 then Supplied([], next)
    else
      var w := ToDatabaseConfig(ds[0], next);
      var rest := ToDatabaseConfigs(ds[1..], w.next);
      DatabasesSavedCons(w.value, rest.value, ds, next, w.next, rest.next);
      assert AuthDraw(ds[0]) ==> DrawnIn(w.value.auth.value.id.value, next, w.next) by {
        if AuthDraw(ds[0]) {
          assert next <= next < w.next && Uuid(next) == w.value.auth.value.id.value;
        }
      }
      assert forall j :: 0 <= j < |rest.value| && AuthDraw(ds[1..][j]) ==>
        rest.value[j].auth.Some? && rest.value[j].auth.value.id.Some? && DrawnIn(rest.value[j].auth.value.id.value, w.next, rest.next) by {
        forall j | 0 <= j < |rest.value| && AuthDraw(ds[1..][j])
          ensures rest.value[j].auth.Some? && rest.value[j].auth.value.id.Some?
          ensures DrawnIn(rest.value[j].auth.value.id.value, w.next, rest.next)
        {
          assert DatabaseSaved(rest.value[j], ds[1..][j], w.next, rest.next);
        }
      }
      AuthDrawsCons(w.value, rest.value, ds, next, w.next, rest.next);
      Supplied([w.value] + rest.value, rest.next)
  }

  /** The connection identifier is drawn before any `auth.id`, so it differs
      from each of them. */
  lemma ConnectionSaveDrawFirst(w: ConnectionConfig, c: Connection, lo: nat, mid: nat, hi: nat)
    requires |w.databases| == |c.databases|
    requires c.id == "" ==> w.id == Some(Uuid(lo)) && mid == lo + 1
    requires forall j :: 0 <= j < |c.databases| ==> DatabaseSaved(w.databases[j], c.databases[j], mid, hi)
    requires AuthDrawsDistinct(w.databases, c.databases)
    ensures SaveDrawsDistinct(w, c)
  {
    if c.id == "" {
      assert DrawnIn(Uuid(lo), lo, mid) by {
        assert lo <= lo < mid && Uuid(lo) == Uuid(lo);
      }
      forall j | 0 <= j < |c.databases| && AuthDraw(c.databases[j]) && w.databases[j].auth.Some?
        ensures w.databases[j].auth.value.id != w.id
      {
        assert DatabaseSaved(w.databases[j], c.databases[j], mid, hi);
        DisjointDrawsDiffer(Uuid(lo), w.databases[j].auth.value.id.value, lo, mid, mid, hi);
      }
    }
  }

  /** `convertConnectionInstanceIntoConfig`: the connection identifier is kept
      or drawn first, then the databases are written in order. Every
      identifier drawn in the save differs from every other one. */
  function ToConfig(c: Connection, next: nat): (r: Supplied<ConnectionConfig>)
    ensures next <= r.next
    ensures Saved(r.value, c, next, r.next)
    ensures c.id == "" ==> r.value.id == Some(Uuid(next))
    ensures SaveDrawsDistinct(r.value, c)
  {
    var id := OrFresh(Some(c.id), next);
    var dbs := ToDatabaseConfigs(c.databases, id.next);
    assert !Truthy(Some(c.id)) ==> DrawnIn(id.value, next, dbs.next) by {
      if !Truthy(Some(c.id)) {
        assert next <= next < dbs.next && Uuid(next) == id.value;
      }
    }
    forall j | 0 <= j < |c.databases|
      ensures DatabaseSaved(dbs.value[j], c.databases[j], next, dbs.next)
    {
      DatabaseSavedWiden(dbs.value[j], c.databases[j], id.next, dbs.next, next, dbs.next);
    }
    var w := ConnectionConfig(Some(id.value), c.name, c.host, c.port, dbs.value);
    ConnectionSaveDrawFirst(w, c, next, id.next, dbs.next);
    Supplied(w, dbs.next)
  }

  /** Putting one saved entity in front of a list saved with the following
      draws gives a list saved with the whole range of draws. */
  lemma SavedCons(w: ConnectionConfig, rest: seq<ConnectionConfig>, cs: seq<Connection>, lo: nat, mid: nat, hi: nat)
    requires |cs| == |rest| + 1
    requires lo <= mid <= hi
    requires Saved(w, cs[0], lo, mid)
    requires forall i :: 0 <= i < |rest| ==> Saved(rest[i], cs[1..][i], mid, hi)
    ensures forall i :: 0 <= i < |cs| ==> Saved(([w] + rest)[i], cs[i], lo, hi)
  {
    var all := [w] + rest;
    forall i | 0 <= i < |cs|
      ensures Saved(all[i], cs[i], lo, hi)
    {
      if i == 0 {
        SavedWiden(w, cs[0], lo, mid, lo, hi);
      } else {
        assert all[i] == rest[i - 1] && cs[i] == cs[1..][i - 1];
        SavedWiden(rest[i - 1], cs[1..][i - 1], mid, hi, lo, hi);
      }
    }
  }

  /** Putting one saved entity in front of a list saved with the following
      draws keeps every drawn identifier different from every other. */
  lemma AllSaveDrawsCons(w: ConnectionConfig, rest: seq<ConnectionConfig>, c: Connection, restCs: seq<Connection>,
                         lo: nat, mid: nat, hi: nat)
    requires Saved(w, c, lo, mid) && SaveDrawsDistinct(w, c)
    requires |rest| == |restCs|
    requires forall i :: 0 <= i < |rest| ==> Saved(rest[i], restCs[i], mid, hi)
    requires AllSaveDrawsDistinct(rest, restCs)
    ensures AllSaveDrawsDistinct([w] + rest, [c] + restCs)
  {
    var all := [w] + rest;
    var allCs := [c] + restCs;
    forall j | 0 <= j < |rest|
      ensures SaveDrawsDisjoint(w, c, rest[j], restCs[j])
    {
      DisjointSaves(w, c, lo, mid, rest[j], restCs[j], mid, hi);
    }
    forall i | 0 <= i < |allCs|
      ensures SaveDrawsDistinct(all[i], allCs[i])
    {
      if i > 0 {
        assert all[i] == rest[i - 1] && allCs[i] == restCs[i - 1];
      }
    }
    forall i, j | 0 <= i < j < |allCs|
      ensures SaveDrawsDisjoint(all[i], allCs[i], all[j], allCs[j])
    {
      assert all[j] == rest[j - 1] && allCs[j] == restCs[j - 1];
      if i > 0 {
        assert all[i] == rest[i - 1] && allCs[i] == restCs[i - 1];
      }
    }
  }

  /** `connections.map(convertConnectionInstanceIntoConfig)`. Every
      identifier drawn in the save, for a connection or an auth block,
      differs from every other one. */
  function ToConfigs(cs: seq<Connection>, next: nat): (r: Supplied<seq<ConnectionConfig>>)
    ensures next <= r.next
    ensures |r.value| == |cs|
    ensures forall i :: 0 <= i < |cs| ==> Saved(r.value[i], cs[i], next, r.next)
    ensures AllSaveDrawsDistinct(r.value, cs)
    decreases |cs|
  {
    if |cs| == 0 then Supplied([], next)
    else
      var w := ToConfig(cs[0], next);
      var rest := ToConfigs(cs[1..], w.next);
      SavedCons(w.value, rest.value, cs, next, w.next, rest.next);
      assert cs == [cs[0]] + cs[1..];
      AllSaveDrawsCons(w.value, rest.value, cs[0], cs[1..], next, w.next, rest.next);
      Supplied([w.value] + rest.value, rest.next)
  }
}

=== FILE: properties.dfy ===
/** Properties that relate several repository operations: the identifier
    invariant that `create` and `delete` keep, deleting twice, creating twice,
    listing twice, and the create/list/delete scenario. */
module CatalogProperties {
  import opened Wrappers
  import opened Ids
  import opened ConfigRecords
  import opened Entities
  import opened Mapper
  import opened RoundTrip
  import opened Errors
  import opened ConfigFile
  import opened Repository

  /** Every truthy stored connection identifier is unique in the file and is
      not a draw the generator will still make. */
  ghost predicate UniqueIds(stored: seq<ConnectionConfig>, next: nat) {
    && (forall i :: 0 <= i < |stored| && Truthy(stored[i].id) ==> NotFuture(stored[i].id.value, next))
    && (forall i, j :: 0 <= i < j < |stored| && Truthy(stored[i].id) && Truthy(stored[j].id) ==>
          stored[i].id != stored[j].id)
  }

  /** Every stored connection record has a truthy identifier. */
  ghost predicate AllIdentified(stored: seq<ConnectionConfig>) {
    forall i :: 0 <= i < |stored| ==> Truthy(stored[i].id)
  }

  /** Loading a file whose identifiers are unique gives entities whose
      identifiers are pairwise different and are not future draws. */
  lemma LoadedIdsUnique(stored: seq<ConnectionConfig>, loaded: seq<Connection>, lo: nat, hi: nat)
    requires lo <= hi
    requires UniqueIds(stored, lo)
    requires |loaded| == |stored|
    requires forall i :: 0 <= i < |stored| ==> Loaded(loaded[i], stored[i], lo, hi)
    requires AllDrawsDistinct(loaded, stored)
    ensures forall i, j :: 0 <= i < j < |loaded| ==> loaded[i].id != loaded[j].id
    ensures forall i :: 0 <= i < |loaded| ==> NotFuture(loaded[i].id, hi)
  {
    DrawnIdsFromAllDraws(loaded, stored);
    forall i | 0 <= i < |loaded|
      ensures NotFuture(loaded[i].id, hi)
    {
      if !Truthy(stored[i].id) {
        DrawnIsNotFuture(loaded[i].id, lo, hi, hi);
      }
    }
    forall i, j | 0 <= i < j < |loaded|
      ensures loaded[i].id != loaded[j].id
    {
      if Truthy(stored[i].id) && !Truthy(stored[j].id) {
        var k: nat :| lo <= k < hi && Uuid(k) == loaded[j].id;
      } else if !Truthy(stored[i].id) && Truthy(stored[j].id) {
        var k: nat :| lo <= k < hi && Uuid(k) == loaded[i].id;
      }
    }
  }

  /** Saved records carry exactly the identifiers of entities that have one. */
  lemma SavedIds(cs: seq<Connection>, w: seq<ConnectionConfig>, lo: nat, hi: nat)
    requires |w| == |cs|
    requires forall i :: 0 <= i < |cs| ==> cs[i].id != ""
    requires forall i :: 0 <= i < |cs| ==> Saved(w[i], cs[i], lo, hi)
    ensures forall i :: 0 <= i < |w| ==> w[i].id == Some(cs[i].id)
  {
  }

  /** A successful write by `create` leaves every record identified and the
      identifiers unique, the new one included. */
  lemma CreateKeepsUniqueIds(f: FileState, next: nat, options: Option<CreateOptions>, writeFault: Option<string>)
    requires ReadConfigFile(f).Ok? && UniqueIds(ReadConfigFile(f).value, next)
    ensures Create(f, next, options, writeFault).written.Some? ==>
      && AllIdentified(Create(f, next, options, writeFault).written.value)
      && UniqueIds(Create(f, next, options, writeFault).written.value, Create(f, next, options, writeFault).next)
  {
    var o := Create(f, next, options, writeFault);
    if o.written.Some? {
      WrittenIdsUnique(ReadConfigFile(f).value, o.written.value, options.value, next, o.next);
    }
  }

  /** The identifier facts of `create`, from its contract. */
  lemma WrittenIdsUnique(stored: seq<ConnectionConfig>, w: seq<ConnectionConfig>, options: CreateOptions, next: nat, hi: nat)
    requires next < hi
    requires UniqueIds(stored, next)
    requires |w| == |stored| + 1
    requires forall i :: 0 <= i < |stored| ==> Rewritten(w[i], stored[i], next + 1, hi)
    requires NewRecord(w[|stored|], options, Uuid(next), next + 1, hi)
    requires AssignedIdsDistinct(w, stored)
    ensures AllIdentified(w)
    ensures UniqueIds(w, hi)
  {
    var n := |stored|;
    forall i | 0 <= i < |w|
      ensures Truthy(w[i].id) && NotFuture(w[i].id.value, hi)
    {
      if i < n {
        assert Rewritten(w[i], stored[i], next + 1, hi);
        if !Truthy(stored[i].id) {
          DrawnIsNotFuture(w[i].id.value, next + 1, hi, hi);
        }
      } else {
        forall j: nat | hi <= j
          ensures Uuid(j) != Uuid(next)
        {
          UuidInjective(j, next);
        }
      }
    }
    forall i, j | 0 <= i < j < |w|
      ensures w[i].id != w[j].id
    {
      assert Rewritten(w[i], stored[i], next + 1, hi);
      var a := w[i].id.value;
      if j == n {
        if Truthy(stored[i].id) {
          assert NotFuture(stored[i].id.value, next);
        } else {
          var k: nat :| next + 1 <= k < hi && Uuid(k) == a;
          UuidInjective(k, next);
        }
      } else {
        assert Rewritten(w[j], stored[j], next + 1, hi);
        var b := w[j].id.value;
        if Truthy(stored[i].id) && !Truthy(stored[j].id) {
          var k: nat :| next + 1 <= k < hi && Uuid(k) == b;
        } else if !Truthy(stored[i].id) && Truthy(stored[j].id) {
          var k: nat :| next + 1 <= k < hi && Uuid(k) == a;
        }
      }
    }
  }

  /** A successful write by `delete` leaves every record identified, the
      identifiers unique, and no record with the deleted identifier. */
  lemma DeleteKeepsUniqueIds(f: FileState, next: nat, id: string, writeFault: Option<string>)
    requires ReadConfigFile(f).Ok? && UniqueIds(ReadConfigFile(f).value, next)
    ensures Delete(f, next, id, writeFault).written.Some? ==>
      && AllIdentified(Delete(f, next, id, writeFault).written.value)
      && UniqueIds(Delete(f, next, id, writeFault).written.value, Delete(f, next, id, writeFault).next)
      && forall i :: 0 <= i < |Delete(f, next, id, writeFault).written.value| ==>
           Delete(f, next, id, writeFault).written.value[i].id != Some(id)
  {
    var o := Delete(f, next, id, writeFault);
    var stored := ReadConfigFile(f).value;
    var listed := List(f, next);
    var loaded := listed.result.value;
    var removed := RemoveConnection(id, loaded);
    DeleteUnfold(f, next, id, writeFault);
    if removed.Ok? {
      var remaining := removed.value;
      var saved := ToConfigs(remaining, listed.next);
      DeletedListIdsUnique(stored, loaded, id, remaining, saved.value, next, listed.next, saved.next);
    }
  }

  /** The identifier facts of `delete`, from the contracts of its steps. */
  lemma DeletedListIdsUnique(stored: seq<ConnectionConfig>, loaded: seq<Connection>, id: string,
                             remaining: seq<Connection>, w: seq<ConnectionConfig>, lo: nat, mid: nat, hi: nat)
    requires lo <= mid <= hi
    requires UniqueIds(stored, lo)
    requires |loaded| == |stored|
    requires forall i :: 0 <= i < |stored| ==> Loaded(loaded[i], stored[i], lo, mid)
    requires AllDrawsDistinct(loaded, stored)
    requires exists k :: FirstWithId(loaded, id, k) && remaining == loaded[..k] + loaded[k + 1..]
    requires |w| == |remaining|
    requires forall i :: 0 <= i < |remaining| ==> Saved(w[i], remaining[i], mid, hi)
    ensures AllIdentified(w)
    ensures UniqueIds(w, hi)
    ensures forall i :: 0 <= i < |w| ==> w[i].id != Some(id)
  {
    LoadedIdsUnique(stored, loaded, lo, mid);
    var k :| FirstWithId(loaded, id, k) && remaining == loaded[..k] + loaded[k + 1..];
    assert forall i :: 0 <= i < |remaining| ==> remaining[i].id != "" by {
      forall i | 0 <= i < |remaining|
        ensures remaining[i].id != ""
      {
        assert remaining[i] == loaded[if i < k then i else i + 1];
      }
    }
    SavedIds(remaining, w, mid, hi);
    RemainingIdsUnique(loaded, id, remaining, w, mid, hi);
  }

  /** The steps `delete` takes when the read succeeds. */
  lemma DeleteUnfold(f: FileState, next: nat, id: string, writeFault: Option<string>)
    requires ReadConfigFile(f).Ok?
    ensures var listed := List(f, next);
      var removed := RemoveConnection(id, listed.result.value);
      && listed.result.Ok?
      && (Delete(f, next, id, writeFault).written.Some? <==> removed.Ok?)
      && (removed.Ok? ==>
            && Delete(f, next, id, writeFault).written == Some(ToConfigs(removed.value, listed.next).value)
            && Delete(f, next, id, writeFault).next == ToConfigs(removed.value, listed.next).next)
  {
  }

  /** The identifier facts of `delete`, on the list without the removed entity. */
  lemma RemainingIdsUnique(loaded: seq<Connection>, id: string, remaining: seq<Connection>,
                           w: seq<ConnectionConfig>, lo: nat, hi: nat)
    requires lo <= hi
    requires forall i, j :: 0 <= i < j < |loaded| ==> loaded[i].id != loaded[j].id
    requires forall i :: 0 <= i < |loaded| ==> loaded[i].id != "" && NotFuture(loaded[i].id, lo)
    requires exists k :: FirstWithId(loaded, id, k) && remaining == loaded[..k] + loaded[k + 1..]
    requires |w| == |remaining|
    requires forall i :: 0 <= i < |w| ==> w[i].id == Some(remaining[i].id)
    ensures AllIdentified(w)
    ensures UniqueIds(w, hi)
    ensures forall i :: 0 <= i < |w| ==> w[i].id != Some(id)
  {
    var k :| FirstWithId(loaded, id, k) && remaining == loaded[..k] + loaded[k + 1..];
    assert forall i :: 0 <= i < |remaining| ==> remaining[i] == loaded[if i < k then i else i + 1];
    forall i | 0 <= i < |w|
      ensures NotFuture(w[i].id.value, hi) && w[i].id != Some(id)
    {
      var src := if i < k then i else i + 1;
      assert loaded[src].id != loaded[k].id;
      assert NotFuture(loaded[src].id, lo);
    }
    forall i, j | 0 <= i < j < |w|
      ensures w[i].id != w[j].id
    {
      var si := if i < k then i else i + 1;
      var sj := if j < k then j else j + 1;
      assert si < sj;
    }
  }

  /** Deleting an identifier that a stored record carries succeeds and
      shortens the file by one; deleting it again rejects with "Connection
      not found" and writes nothing. */
  lemma DeleteTwiceNotFound(f: FileState, next: nat, id: string, fault2: Option<string>)
    requires ReadConfigFile(f).Ok? && UniqueIds(ReadConfigFile(f).value, next)
    requires exists i :: 0 <= i < |ReadConfigFile(f).value| && ReadConfigFile(f).value[i].id == Some(id)
    requires id != ""
    ensures var first := Delete(f, next, id, None);
      && first.result == Ok(())
      && first.written.Some?
      && |first.written.value| == |ReadConfigFile(f).value| - 1
      && Delete(Written(first.written.value), first.next, id, fault2).result == Err(PlainError(ConnectionNotFound))
      && Delete(Written(first.written.value), first.next, id, fault2).written.None?
  {
    DeleteStoredId(f, next, id);
    DeleteKeepsUniqueIds(f, next, id, None);
    var first := Delete(f, next, id, None);
    DeleteMissingId(Written(first.written.value), first.next, id, fault2);
  }

  /** `delete` of an identifier that a stored record carries writes, and with
      no write fault it resolves. */
  lemma DeleteStoredId(f: FileState, next: nat, id: string)
    requires ReadConfigFile(f).Ok?
    requires exists i :: 0 <= i < |ReadConfigFile(f).value| && ReadConfigFile(f).value[i].id == Some(id)
    requires id != ""
    ensures Delete(f, next, id, None).written.Some?
    ensures Delete(f, next, id, None).result == Ok(())
  {
    var stored := ReadConfigFile(f).value;
    var i :| 0 <= i < |stored| && stored[i].id == Some(id);
    var listed := List(f, next);
    assert Loaded(listed.result.value[i], stored[i], next, listed.next);
  }

  /** `delete` on a file whose records all have identifiers, none of them the
      given one, rejects with "Connection not found" and writes nothing. */
  lemma DeleteMissingId(f: FileState, next: nat, id: string, writeFault: Option<string>)
    requires ReadConfigFile(f).Ok? && AllIdentified(ReadConfigFile(f).value)
    requires forall i :: 0 <= i < |ReadConfigFile(f).value| ==> ReadConfigFile(f).value[i].id != Some(id)
    ensures Delete(f, next, id, writeFault).written.None?
    ensures Delete(f, next, id, writeFault).result == Err(PlainError(ConnectionNotFound))
  {
    var stored := ReadConfigFile(f).value;
    var listed := List(f, next);
    forall j | 0 <= j < |listed.result.value|
      ensures listed.result.value[j].id != id
    {
      assert Loaded(listed.result.value[j], stored[j], next, listed.next);
    }
  }

  /** Two `create` calls in a row give connections with different
      identifiers, whatever identifier the caller passed. */
  lemma CreateTwiceDistinct(f: FileState, next: nat, options: CreateOptions, fault2: Option<string>)
    requires ReadConfigFile(f).Ok?
    ensures Create(f, next, Some(options), None).result.Ok?
    ensures var first := Create(f, next, Some(options), None);
      var second := Create(Written(first.written.value), first.next, Some(options), fault2);
      second.result.Ok? ==> second.result.value.id != first.result.value.id
  {
    var first := Create(f, next, Some(options), None);
    UuidInjective(next, first.next);
  }

  /** `create` never keeps the identifier the caller supplied, unless the
      generator itself would produce it. */
  lemma CreateIgnoresCallerId(f: FileState, next: nat, options: CreateOptions, writeFault: Option<string>)
    requires options.id.Some? && NotFuture(options.id.value, next)
    ensures Create(f, next, Some(options), writeFault).result.Ok? ==>
      Create(f, next, Some(options), writeFault).result.value.id != options.id.value
    ensures Create(f, next, Some(options), writeFault).written.Some? ==>
      Create(f, next, Some(options), writeFault).written.value[|ReadConfigFile(f).value|].id != options.id
  {
  }

  /** Database identifiers are never written, so a stored database record
      written by the repository has none, and the next `create` writes an
      auth block for it whose identifier is drawn during that call: one that
      differs from any auth identifier that is not a future draw. */
  lemma CreateRegeneratesAuthId(f: FileState, next: nat, options: CreateOptions, writeFault: Option<string>, i: nat, j: nat)
    requires ReadConfigFile(f).Ok?
    requires i < |ReadConfigFile(f).value| && j < |ReadConfigFile(f).value[i].databases|
    requires ReadConfigFile(f).value[i].databases[j].id.None?
    requires ReadConfigFile(f).value[i].databases[j].auth.Some?
    ensures var o := Create(f, next, Some(options), writeFault);
      && o.written.Some?
      && o.written.value[i].databases[j].auth.Some?
      && DrawnIn(o.written.value[i].databases[j].auth.value.id.value, next + 1, o.next)
    ensures var o := Create(f, next, Some(options), writeFault);
      var before := ReadConfigFile(f).value[i].databases[j].auth.value.id;
      before.Some? && NotFuture(before.value, next) ==> o.written.value[i].databases[j].auth.value.id != before
  {
    var o := Create(f, next, Some(options), writeFault);
    var s := ReadConfigFile(f).value[i];
    assert Rewritten(o.written.value[i], s, next + 1, o.next);
    assert DatabaseRewritten(o.written.value[i].databases[j], s.databases[j], next + 1, o.next);
    var drawn := o.written.value[i].databases[j].auth.value.id.value;
    var k: nat :| next + 1 <= k < o.next && Uuid(k) == drawn;
  }

  /** `list` gives two database entities whose stored records lack an
      identifier different identifiers, whether they belong to the same
      connection or to two different ones. */
  lemma ListedDatabaseDrawsDistinct(f: FileState, next: nat, i: nat, a: nat, j: nat, b: nat)
    requires ReadConfigFile(f).Ok?
    requires i < |ReadConfigFile(f).value| && a < |ReadConfigFile(f).value[i].databases|
    requires j < |ReadConfigFile(f).value| && b < |ReadConfigFile(f).value[j].databases|
    requires i != j || a != b
    requires !Truthy(ReadConfigFile(f).value[i].databases[a].id) && !Truthy(ReadConfigFile(f).value[j].databases[b].id)
    ensures List(f, next).result.value[i].databases[a].id != List(f, next).result.value[j].databases[b].id
  {
    var stored := ReadConfigFile(f).value;
    var cs := List(f, next).result.value;
    assert AllDrawsDistinct(cs, stored);
    assert Loaded(cs[i], stored[i], next, List(f, next).next);
    assert Loaded(cs[j], stored[j], next, List(f, next).next);
    if i == j {
      assert DatabaseDrawsDistinct(cs[i].databases, stored[i].databases);
    } else {
      assert DrawnFor(cs[i].databases[a].id, cs[i], stored[i]);
      assert DrawnFor(cs[j].databases[b].id, cs[j], stored[j]);
      if i < j {
        assert LoadDrawsDisjoint(cs[i], stored[i], cs[j], stored[j]);
      } else {
        assert LoadDrawsDisjoint(cs[j], stored[j], cs[i], stored[i]);
      }
    }
  }

  /** An identifier that `list` drew for a record without one is never
      persisted: the next `delete` loads the file again, draws other
      identifiers, and does not find it. */
  lemma ListedIdNotPersisted(f: FileState, next: nat, i: nat, writeFault: Option<string>)
    requires ReadConfigFile(f).Ok?
    requires i < |ReadConfigFile(f).value| && !Truthy(ReadConfigFile(f).value[i].id)
    requires forall r :: 0 <= r < |ReadConfigFile(f).value| && Truthy(ReadConfigFile(f).value[r].id) ==>
      NotFuture(ReadConfigFile(f).value[r].id.value, next)
    ensures Delete(f, List(f, next).next, List(f, next).result.value[i].id, writeFault).result == Err(PlainError(ConnectionNotFound))
    ensures Delete(f, List(f, next).next, List(f, next).result.value[i].id, writeFault).written.None?
  {
    var stored := ReadConfigFile(f).value;
    var first := List(f, next);
    var id := first.result.value[i].id;
    assert Loaded(first.result.value[i], stored[i], next, first.next);
    var k: nat :| next <= k < first.next && Uuid(k) == id;
    var second := List(f, first.next);
    forall r | 0 <= r < |second.result.value|
      ensures second.result.value[r].id != id
    {
      assert Loaded(second.result.value[r], stored[r], first.next, second.next);
      if !Truthy(stored[r].id) {
        DisjointDrawsDiffer(id, second.result.value[r].id, next, first.next, first.next, second.next);
      }
    }
  }

  /** Listing twice without a write in between: same length and order, same
      fields; a connection or database record with a stored identifier keeps
      it, and one without gets a different identifier on each call. */
  lemma ListTwice(f: FileState, next: nat)
    requires ReadConfigFile(f).Ok?
    ensures var first := List(f, next);
      var second := List(f, first.next);
      && |first.result.value| == |second.result.value|
      && forall i :: 0 <= i < |first.result.value| ==>
           && (Truthy(ReadConfigFile(f).value[i].id) <==> first.result.value[i].id == second.result.value[i].id)
           && |second.result.value[i].databases| == |first.result.value[i].databases|
           && (forall j :: 0 <= j < |first.result.value[i].databases| ==>
                 && second.result.value[i].databases[j].name == first.result.value[i].databases[j].name
                 && second.result.value[i].databases[j].host == first.result.value[i].databases[j].host
                 && second.result.value[i].databases[j].port == first.result.value[i].databases[j].port
                 && second.result.value[i].databases[j].auth == first.result.value[i].databases[j].auth
                 && (Truthy(ReadConfigFile(f).value[i].databases[j].id) <==>
                       second.result.value[i].databases[j].id == first.result.value[i].databases[j].id))
           && second.result.value[i].name == first.result.value[i].name
           && second.result.value[i].host == first.result.value[i].host
           && second.result.value[i].port == first.result.value[i].port
  {
    var stored := ReadConfigFile(f).value;
    var first := List(f, next);
    var second := List(f, first.next);
    forall i | 0 <= i < |stored|
      ensures !Truthy(stored[i].id) ==> first.result.value[i].id != second.result.value[i].id
    {
      assert Loaded(first.result.value[i], stored[i], next, first.next);
      assert Loaded(second.result.value[i], stored[i], first.next, second.next);
      if !Truthy(stored[i].id) {
        DisjointDrawsDiffer(first.result.value[i].id, second.result.value[i].id, next, first.next, first.next, second.next);
      }
    }
    forall i, j | 0 <= i < |stored| && 0 <= j < |first.result.value[i].databases|
      ensures second.result.value[i].databases[j].name == first.result.value[i].databases[j].name
      ensures second.result.value[i].databases[j].host == first.result.value[i].databases[j].host
      ensures second.result.value[i].databases[j].port == first.result.value[i].databases[j].port
      ensures second.result.value[i].databases[j].auth == first.result.value[i].databases[j].auth
      ensures Truthy(stored[i].databases[j].id) <==>
        second.result.value[i].databases[j].id == first.result.value[i].databases[j].id
    {
      assert Loaded(first.result.value[i], stored[i], next, first.next);
      assert Loaded(second.result.value[i], stored[i], first.next, second.next);
      assert DatabaseLoaded(first.result.value[i].databases[j], stored[i].databases[j], stored[i], next, first.next);
      assert DatabaseLoaded(second.result.value[i].databases[j], stored[i].databases[j], stored[i], first.next, second.next);
      if !Truthy(stored[i].databases[j].id) {
        DisjointDrawsDiffer(first.result.value[i].databases[j].id, second.result.value[i].databases[j].id,
                            next, first.next, first.next, second.next);
      }
    }
  }

  /** The options of the walkthrough below. */
  function Db1Options(): CreateOptions
  {
    CreateOptions(None, Some("db1"), Some("localhost"), Some(5432), Some("mydb"), None)
  }

  /** Starting from an empty catalog: create one connection, list it, delete
      it by the identifier `create` returned, and list nothing. */
  lemma CreateListDeleteScenario(f: FileState, next: nat)
    requires ReadConfigFile(f) == Ok([])
    ensures var created := Create(f, next, Some(Db1Options()), None);
      && created.result.Ok?
      && created.written.Some?
      && var listed := List(Written(created.written.value), created.next);
         && listed.result.Ok?
         && |listed.result.value| == 1
         && listed.result.value[0].id == created.result.value.id
         && listed.result.value[0].name == Some("db1")
         && |listed.result.value[0].databases| == 1
         && listed.result.value[0].databases[0].name == Some("mydb")
         && var deleted := Delete(Written(created.written.value), listed.next, created.result.value.id, None);
            && deleted.result == Ok(())
            && deleted.written == Some([])
            && List(Written(deleted.written.value), deleted.next).result == Ok([])
  {
    var created := Create(f, next, Some(Db1Options()), None);
    var w := created.written.value;
    assert |w| == 1;
    assert NewRecord(w[0], Db1Options(), Uuid(next), next + 1, created.next);
    var listed := List(Written(w), created.next);
    assert Loaded(listed.result.value[0], w[0], created.next, listed.next);
    assert DatabaseLoaded(listed.result.value[0].databases[0], w[0].databases[0], w[0], created.next, listed.next);
    var deleted := Delete(Written(w), listed.next, created.result.value.id, None);
    assert |deleted.written.value| == 0;
  }

  /** Listing a file whose records all have truthy identifiers reports
      exactly those identifiers, with names, hosts, ports and database names
      unchanged. */
  lemma ListIdentified(w: seq<ConnectionConfig>, next: nat)
    requires AllIdentified(w)
    ensures var listed := List(Written(w), next);
      && listed.result.Ok?
      && |listed.result.value| == |w|
      && forall i :: 0 <= i < |w| ==>
           && Some(listed.result.value[i].id) == w[i].id
           && listed.result.value[i].name == w[i].name
           && listed.result.value[i].host == w[i].host
           && listed.result.value[i].port == w[i].port
           && |listed.result.value[i].databases| == |w[i].databases|
           && forall j :: 0 <= j < |w[i].databases| ==> listed.result.value[i].databases[j].name == w[i].databases[j].name
  {
    var listed := List(Written(w), next);
    forall i | 0 <= i < |w|
      ensures Some(listed.result.value[i].id) == w[i].id
    {
      assert Loaded(listed.result.value[i], w[i], next, listed.next);
    }
  }

  /** `create` on a file whose records all have truthy identifiers keeps
      those records' identifiers, names, hosts, ports and database names, and
      appends the new record. */
  lemma CreateOnIdentified(f: FileState, next: nat, options: CreateOptions)
    requires ReadConfigFile(f).Ok? && AllIdentified(ReadConfigFile(f).value)
    ensures var stored := ReadConfigFile(f).value;
      var o := Create(f, next, Some(options), None);
      && o.written.Some?
      && next < o.next
      && |o.written.value| == |stored| + 1
      && AllIdentified(o.written.value)
      && (forall i :: 0 <= i < |stored| ==>
            && o.written.value[i].id == stored[i].id
            && o.written.value[i].name == stored[i].name
            && o.written.value[i].host == stored[i].host
            && o.written.value[i].port == stored[i].port
            && |o.written.value[i].databases| == |stored[i].databases|
            && forall j :: 0 <= j < |stored[i].databases| ==> o.written.value[i].databases[j].name == stored[i].databases[j].name)
      && o.written.value[|stored|].id == Some(Uuid(next))
      && o.written.value[|stored|].name == options.name
      && o.written.value[|stored|].host == options.host
      && o.written.value[|stored|].port == options.port
      && |o.written.value[|stored|].databases| == 1
      && o.written.value[|stored|].databases[0].name == options.databaseName
  {
    var stored := ReadConfigFile(f).value;
    var o := Create(f, next, Some(options), None);
    forall i | 0 <= i < |stored|
      ensures o.written.value[i].id == stored[i].id
      ensures forall j :: 0 <= j < |stored[i].databases| ==> o.written.value[i].databases[j].name == stored[i].databases[j].name
    {
      assert Rewritten(o.written.value[i], stored[i], next + 1, o.next);
      forall j | 0 <= j < |stored[i].databases|
        ensures o.written.value[i].databases[j].name == stored[i].databases[j].name
      {
        assert DatabaseRewritten(o.written.value[i].databases[j], stored[i].databases[j], next + 1, o.next);
      }
    }
    assert NewRecord(o.written.value[|stored|], options, Uuid(next), next + 1, o.next);
  }

  /** Two `create` calls with the same options on an empty catalog: `list`
      then reports two connections with different identifiers that agree on
      everything else they were created from. */
  lemma CreateTwiceScenario(f: FileState, next: nat, options: CreateOptions)
    requires ReadConfigFile(f) == Ok([])
    ensures var first := Create(f, next, Some(options), None);
      var second := Create(Written(first.written.value), first.next, Some(options), None);
      var listed := List(Written(second.written.value), second.next);
      && listed.result.Ok?
      && |listed.result.value| == 2
      && listed.result.value[0].id != listed.result.value[1].id
      && listed.result.value[0].name == listed.result.value[1].name == options.name
      && listed.result.value[0].host == listed.result.value[1].host == options.host
      && listed.result.value[0].port == listed.result.value[1].port == options.port
      && |listed.result.value[0].databases| == |listed.result.value[1].databases| == 1
      && listed.result.value[0].databases[0].name == listed.result.value[1].databases[0].name == options.databaseName
  {
    var first := Create(f, next, Some(options), None);
    var second := Create(Written(first.written.value), first.next, Some(options), None);
    CreateOnIdentified(f, next, options);
    CreateOnIdentified(Written(first.written.value), first.next, options);
    UuidInjective(next, first.next);
    ListIdentified(second.written.value, second.next);
  }
}

=== FILE: records.dfy ===
/** The on-disk shape of the connection catalog: one JSON array of connection
    records, each holding its database records. An absent JSON field is `None`. */
module ConfigRecords {
  import opened Wrappers

  /** A credential block; it is copied verbatim from disk into the entity. */
  datatype AuthConfig = AuthConfig(id: Option<string>, username: Option<string>, password: Option<string>)

  /** A database record. The repository never writes `id`, `host` or `port`
      here, but a hand-edited file may hold them, so the reader sees them. */
  datatype DatabaseConfig = DatabaseConfig(
    id: Option<string>,
    name: Option<string>,
    host: Option<string>,
    port: Option<int>,
    auth: Option<AuthConfig>)

  /** A connection record; an absent `databases` array is the empty sequence. */
  datatype ConnectionConfig = ConnectionConfig(
    id: Option<string>,
    name: Option<string>,
    host: Option<string>,
    port: Option<int>,
    databases: seq<DatabaseConfig>)
}

/** The in-memory connection entities. Identifiers are strings, and "" plays
    the role of JavaScript's falsy identifier. */
module Entities {
  import opened Wrappers
  import opened ConfigRecords

  datatype Database = Database(
    id: string,
    name: Option<string>,
    host: Option<string>,
    port: Option<int>,
    auth: Option<AuthConfig>)

  datatype Connection = Connection(
    id: string,
    name: Option<string>,
    host: Option<string>,
    port: Option<int>,
    databases: seq<Database>)

  /** `connection.addDatabase(db)`: the database goes at the end, nothing else changes. */
  function AddDatabase(c: Connection, d: Database): (r: Connection)
    ensures r.databases == c.databases + [d]
    ensures r.(databases := c.databases) == c
  {
    c.(databases := c.databases + [d])
  }
}

=== FILE: repository.dfy ===
/** The connection repository: `create`, `list` and `delete` over the JSON
    file. Each operation is a function of the file it reads, the generator
    counter and, for the operations that write, the failure (if any) that
    `writeConfigFile` reports. It returns an `Outcome`: how the promise
    settles, the list handed to `writeConfigFile` (if the promise chain got
    that far) and the counter afterwards. */
module Repository {
  import opened Wrappers
  import opened Ids
  import opened ConfigRecords
  import opened Entities
  import opened Mapper
  import opened RoundTrip
  import opened Errors
  import opened ConfigFile

  /** The `options` argument of `create`. */
  datatype CreateOptions = CreateOptions(
    id: Option<string>,
    name: Option<string>,
    host: Option<string>,
    port: Option<int>,
    databaseName: Option<string>,
    auth: Option<AuthConfig>)

  datatype Outcome<+T> = Outcome(result: Result<T, Error>, written: Option<seq<ConnectionConfig>>, next: nat)

  const OptionsRequired := "options is required"
  const ConnectionNotFound := "Connection not found"

  /** How the final `writeConfigFile` step settles. */
  function WriteConfigFile<T>(value: T, writeFault: Option<string>): (r: Result<T, Error>)
    ensures r.Ok? <==> writeFault.None?
    ensures r.Ok? ==> r.value == value
    ensures r.Err? ==> r.error == IoError(writeFault.value)
  {
    if writeFault.Some? then Err(IoError(writeFault.value)) else Ok(value)
  }

  // ---------------------------------------------------------------- list

  /** `list`: read the file and map every record to an entity; never writes. */
  function List(f: FileState, next: nat): (o: Outcome<seq<Connection>>)
    ensures o.written.None?
    ensures o.result.Err? <==> ReadConfigFile(f).Err?
    ensures o.result.Err? ==> o.result.error == ReadConfigFile(f).error && o.next == next
    ensures o.result.Ok? ==>
      && next <= o.next
      && |o.result.value| == |ReadConfigFile(f).value|
      && (forall i :: 0 <= i < |o.result.value| ==> Loaded(o.result.value[i], ReadConfigFile(f).value[i], next, o.next))
      && AllDrawsDistinct(o.result.value, ReadConfigFile(f).value)
  {
    match ReadConfigFile(f)
    case Err(e) => Outcome(Err(e), None, next)
    case Ok(stored) =>
      var loaded := FromConfigs(stored, next);
      Outcome(Ok(loaded.value), None, loaded.next)
  }

  // ---------------------------------------------------------------- create

  /** `createConnection`: the entity takes `id`, `name`, `host` and `port` from
      the options (an absent identifier reaching it as the falsy ""), and one
      database with a freshly drawn identifier, the options' `databaseName`,
      host, port and auth block. */
  function CreateConnection(options: CreateOptions, next: nat): (r: Supplied<Connection>)
    ensures r.next == next + 1
    ensures options.id.Some? ==> r.value.id == options.id.value
    ensures r.value.name == options.name && r.value.host == options.host && r.value.port == options.port
    ensures |r.value.databases| == 1
    ensures r.value.databases[0].id == Uuid(next)
    ensures r.value.databases[0].name == options.databaseName
    ensures r.value.databases[0].host == options.host && r.value.databases[0].port == options.port
    ensures r.value.databases[0].auth == options.auth
  {
    var id := if options.id.Some? then options.id.value else "";
    var conn := Connection(id, options.name, options.host, options.port, []);
    Supplied(AddDatabase(conn, Database(Uuid(next), options.databaseName, options.host, options.port, options.auth)), next + 1)
  }

  /** The identifiers written for stored records that had none are pairwise different. */
  ghost predicate AssignedIdsDistinct(w: seq<ConnectionConfig>, stored: seq<ConnectionConfig>)
    requires |stored| <= |w|
  {
    forall i, j :: 0 <= i < j < |stored| && !Truthy(stored[i].id) && !Truthy(stored[j].id) ==> w[i].id != w[j].id
  }

  /** The record `create` appends for `options`: the identifier drawn first,
      the options' name, host and port, and exactly one database record with
      only the database name and, when the options carry credentials, an auth
      block with a drawn identifier and the options' user name and password. */
  ghost predicate NewRecord(w: ConnectionConfig, options: CreateOptions, id: string, lo: nat, hi: nat) {
    && w.id == Some(id)
    && w.name == options.name
    && w.host == options.host
    && w.port == options.port
    && |w.databases| == 1
    && w.databases[0].id.None?
    && w.databases[0].host.None?
    && w.databases[0].port.None?
    && w.databases[0].name == options.databaseName
    && (w.databases[0].auth.Some? <==> options.auth.Some?)
    && (options.auth.Some? ==>
          && w.databases[0].auth.value.id.Some?
          && DrawnIn(w.databases[0].auth.value.id.value, lo, hi)
          && w.databases[0].auth.value.username == options.auth.value.username
          && w.databases[0].auth.value.password == options.auth.value.password)
  }

  /** `create`: reject absent options; otherwise overwrite `options.id` with a
      draw, list, append the new connection, and write the whole list. */
  function Create(f: FileState, next: nat, options: Option<CreateOptions>, writeFault: Option<string>)
    : (o: Outcome<Connection>)
    ensures options.None? ==> o == Outcome(Err(InternalServiceError(OptionsRequired)), None, next)
    ensures options.Some? && ReadConfigFile(f).Err? ==>
      o.result == Err(ReadConfigFile(f).error) && o.written.None?
    ensures options.Some? && ReadConfigFile(f).Ok? ==>
      && o.written.Some?
      && (o.result.Ok? <==> writeFault.None?)
      && (writeFault.Some? ==> o.result == Err(IoError(writeFault.value)))
    ensures o.written.Some? ==>
      && options.Some? && ReadConfigFile(f).Ok?
      && next < o.next
      && |o.written.value| == |ReadConfigFile(f).value| + 1
      && (forall i :: 0 <= i < |ReadConfigFile(f).value| ==>
            Rewritten(o.written.value[i], ReadConfigFile(f).value[i], next + 1, o.next))
      && NewRecord(o.written.value[|ReadConfigFile(f).value|], options.value, Uuid(next), next + 1, o.next)
      && AssignedIdsDistinct(o.written.value, ReadConfigFile(f).value)
    ensures o.result.Ok? ==>
      && options.Some?
      && o.result.value.id == Uuid(next)
      && o.result.value.name == options.value.name
      && o.result.value.host == options.value.host
      && o.result.value.port == options.value.port
      && |o.result.value.databases| == 1
      && o.result.value.databases[0].name == options.value.databaseName
      && o.result.value.databases[0].host == options.value.host
      && o.result.value.databases[0].port == options.value.port
      && o.result.value.databases[0].auth == options.value.auth
    ensures o.result.Ok? ==>
      && o.written.Some?
      && DrawnIn(o.result.value.databases[0].id, next + 1, o.next)
      && o.result.value.databases[0].id != o.result.value.id
      && (options.value.auth.Some? ==>
            o.written.value[|ReadConfigFile(f).value|].databases[0].auth.value.id == Some(o.result.value.databases[0].id))
  {
    if options.None? then
      Outcome(Err(InternalServiceError(OptionsRequired)), None, next)
    else
      var opts := options.value.(id := Some(Uuid(next)));
      var listed := List(f, next + 1);
      if listed.result.Err? then
        Outcome(Err(listed.result.error), None, listed.next)
      else
        var created := CreateConnection(opts, listed.next);
        var all := listed.result.value + [created.value];
        var saved := ToConfigs(all, created.next);
        CreateWrites(ReadConfigFile(f).value, listed.result.value, created.value, saved.value,
                     opts, next, listed.next, created.next, saved.next);
        NewDatabaseDrawn(next, listed.next, saved.next);
        Outcome(WriteConfigFile(created.value, writeFault), Some(saved.value), saved.next)
  }

  /** The database `createConnection` adds gets a draw of its own, made
      after the connection identifier's. */
  lemma NewDatabaseDrawn(next: nat, mid: nat, hi: nat)
    requires next + 1 <= mid < hi
    ensures DrawnIn(Uuid(mid), next + 1, hi)
    ensures Uuid(mid) != Uuid(next)
  {
    UuidInjective(mid, next);
  }

  /** The proof step of `Create`: the written list is the rewritten stored list
      followed by the new record. */
  lemma CreateWrites(stored: seq<ConnectionConfig>, loaded: seq<Connection>, created: Connection,
                     w: seq<ConnectionConfig>, opts: CreateOptions, next: nat, mid: nat, mid': nat, hi: nat)
    requires next + 1 <= mid && mid + 1 == mid' && mid' <= hi
    requires opts.id == Some(Uuid(next))
    requires |loaded| == |stored|
    requires forall i :: 0 <= i < |stored| ==> Loaded(loaded[i], stored[i], next + 1, mid)
    requires AllDrawsDistinct(loaded, stored)
    requires created.id == Uuid(next)
    requires created.name == opts.name && created.host == opts.host && created.port == opts.port
    requires |created.databases| == 1
    requires created.databases[0].id == Uuid(mid)
    requires created.databases[0].name == opts.databaseName
    requires created.databases[0].auth == opts.auth
    requires |w| == |loaded| + 1
    requires forall i :: 0 <= i < |w| ==> Saved(w[i], (loaded + [created])[i], mid', hi)
    ensures forall i :: 0 <= i < |stored| ==> Rewritten(w[i], stored[i], next + 1, hi)
    ensures NewRecord(w[|stored|], opts, Uuid(next), next + 1, hi)
    ensures AssignedIdsDistinct(w, stored)
    ensures opts.auth.Some? ==> w[|stored|].databases[0].auth.value.id == Some(created.databases[0].id)
  {
    DrawnIdsFromAllDraws(loaded, stored);
    forall i | 0 <= i < |stored|
      ensures Rewritten(w[i], stored[i], next + 1, hi)
    {
      assert (loaded + [created])[i] == loaded[i];
      LoadThenSave(stored[i], loaded[i], w[i], next + 1, mid, hi);
      assert w[i].id == Some(loaded[i].id);
    }
    var n := |stored|;
    assert (loaded + [created])[n] == created;
    assert Saved(w[n], created, mid', hi);
    assert DatabaseSaved(w[n].databases[0], created.databases[0], mid', hi);
    if opts.auth.Some? {
      assert w[n].databases[0].auth.value.id.value == Uuid(mid);
      assert next + 1 <= mid < hi;
    }
  }

  // ---------------------------------------------------------------- delete

  /** `k` is the position of the first connection whose identifier is `id`. */
  ghost predicate FirstWithId(cs: seq<Connection>, id: string, k: int) {
    && 0 <= k < |cs|
    && cs[k].id == id
    && forall i :: 0 <= i < k ==> cs[i].id != id
  }

  /** `_.findWhere(connections, {id})` followed by `indexOf`: the position of
      the first connection with that identifier. */
  function IndexOfId(cs: seq<Connection>, id: string): (r: Option<nat>)
    ensures r.None? <==> forall i :: 0 <= i < |cs| ==> cs[i].id != id
    ensures r.Some? ==> FirstWithId(cs, id, r.value)
  {
    if |cs| == 0 then None
    else if cs[0].id == id then Some(0)
    else match IndexOfId(cs[1..], id)
      case None => None
      case Some(i) => assert cs[i + 1] == cs[1..][i]; Some(i + 1)
  }

  /** `removeConnection`: splice out the first connection with identifier
      `id`, or reject with "Connection not found". */
  function RemoveConnection(id: string, cs: seq<Connection>): (r: Result<seq<Connection>, Error>)
    ensures r.Err? <==> forall i :: 0 <= i < |cs| ==> cs[i].id != id
    ensures r.Err? ==> r.error == PlainError(ConnectionNotFound)
    ensures r.Ok? ==> exists k :: FirstWithId(cs, id, k) && r.value == cs[..k] + cs[k + 1..]
  {
    match IndexOfId(cs, id)
    case None => Err(PlainError(ConnectionNotFound))
    case Some(k) => Ok(cs[..k] + cs[k + 1..])
  }

  /** `delete`: list, remove the first connection with identifier `id`, and
      write the whole remaining list. */
  function Delete(f: FileState, next: nat, id: string, writeFault: Option<string>): (o: Outcome<()>)
    ensures ReadConfigFile(f).Err? ==> o.result == Err(ReadConfigFile(f).error) && o.written.None?
    ensures ReadConfigFile(f).Ok? ==>
      (o.written.None? <==> forall i :: 0 <= i < |List(f, next).result.value| ==> List(f, next).result.value[i].id != id)
    ensures ReadConfigFile(f).Ok? && o.written.None? ==> o.result == Err(PlainError(ConnectionNotFound))
    ensures o.written.Some? ==>
      && (o.result.Ok? <==> writeFault.None?)
      && (writeFault.Some? ==> o.result == Err(IoError(writeFault.value)))
    ensures o.written.Some? ==>
      && ReadConfigFile(f).Ok?
      && next <= o.next
      && |o.written.value| == |ReadConfigFile(f).value| - 1
      && exists k ::
           && FirstWithId(List(f, next).result.value, id, k)
           && (forall i :: 0 <= i < k ==> Rewritten(o.written.value[i], ReadConfigFile(f).value[i], next, o.next))
           && (forall i :: k <= i < |o.written.value| ==>
                 Rewritten(o.written.value[i], ReadConfigFile(f).value[i + 1], next, o.next))
  {
    var listed := List(f, next);
    if listed.result.Err? then
      Outcome(Err(listed.result.error), None, listed.next)
    else
      match RemoveConnection(id, listed.result.value)
      case Err(e) => Outcome(Err(e), None, listed.next)
      case Ok(remaining) =>
        var saved := ToConfigs(remaining, listed.next);
        DeleteWrites(ReadConfigFile(f).value, listed.result.value, id, remaining, saved.value, next, listed.next, saved.next);
        Outcome(WriteConfigFile((), writeFault), Some(saved.value), saved.next)
  }

  /** The proof step of `Delete`: the written list is the rewritten stored list
      without the record at the first matching position. */
  lemma DeleteWrites(stored: seq<ConnectionConfig>, loaded: seq<Connection>, id: string,
                     remaining: seq<Connection>, w: seq<ConnectionConfig>, lo: nat, mid: nat, hi: nat)
    requires lo <= mid <= hi
    requires |loaded| == |stored|
    requires forall i :: 0 <= i < |stored| ==> Loaded(loaded[i], stored[i], lo, mid)
    requires exists k :: FirstWithId(loaded, id, k) && remaining == loaded[..k] + loaded[k + 1..]
    requires |w| == |remaining|
    requires forall i :: 0 <= i < |w| ==> Saved(w[i], remaining[i], mid, hi)
    ensures |w| == |stored| - 1
    ensures exists k ::
      && FirstWithId(loaded, id, k)
      && (forall i :: 0 <= i < k ==> Rewritten(w[i], stored[i], lo, hi))
      && (forall i :: k <= i < |w| ==> Rewritten(w[i], stored[i + 1], lo, hi))
  {
    var k :| FirstWithId(loaded, id, k) && remaining == loaded[..k] + loaded[k + 1..];
    forall i | 0 <= i < k
      ensures Rewritten(w[i], stored[i], lo, hi)
    {
      assert remaining[i] == loaded[i];
      LoadThenSave(stored[i], loaded[i], w[i], lo, mid, hi);
    }
    forall i | k <= i < |w|
      ensures Rewritten(w[i], stored[i + 1], lo, hi)
    {
      assert remaining[i] == loaded[i + 1];
      LoadThenSave(stored[i + 1], loaded[i + 1], w[i], lo, mid, hi);
    }
  }
}

=== FILE: roundtrip.dfy ===
/** What one load-then-save cycle does to the stored catalog, and what one
    save-then-load cycle does to a list of entities. */
module RoundTrip {
  import opened Wrappers
  import opened Ids
  import opened ConfigRecords
  import opened Entities
  import opened Mapper

  /** Stored database record `w` is what a load-then-save cycle writes for
      stored database record `s`. The auth block's identifier comes from the
      database's stored identifier, not from the stored auth block. */
  ghost predicate DatabaseRewritten(w: DatabaseConfig, s: DatabaseConfig, lo: nat, hi: nat) {
    && w.id.None?
    && w.host.None?
    && w.port.None?
    && w.name == s.name
    && (w.auth.Some? <==> s.auth.Some?)
    && (s.auth.Some? ==>
          && w.auth.value.id.Some?
          && KeptOrDrawn(w.auth.value.id.value, s.id, lo, hi)
          && w.auth.value.username == s.auth.value.username
          && w.auth.value.password == s.auth.value.password)
  }

  /** Stored connection record `w` is what a load-then-save cycle writes for stored record `s`. */
  ghost predicate Rewritten(w: ConnectionConfig, s: ConnectionConfig, lo: nat, hi: nat) {
    && w.id.Some?
    && KeptOrDrawn(w.id.value, s.id, lo, hi)
    && w.name == s.name
    && w.host == s.host
    && w.port == s.port
    && |w.databases| == |s.databases|
    && forall j :: 0 <= j < |s.databases| ==> DatabaseRewritten(w.databases[j], s.databases[j], lo, hi)
  }

  /** Loading record `s` into `c` and saving `c` as `w` rewrites `s` as `w`. */
  lemma LoadThenSave(s: ConnectionConfig, c: Connection, w: ConnectionConfig, lo: nat, mid: nat, hi: nat)
    requires lo <= mid <= hi
    requires Loaded(c, s, lo, mid)
    requires Saved(w, c, mid, hi)
    ensures Rewritten(w, s, lo, hi)
  {
    assert w.id.value == c.id;
    if !Truthy(s.id) {
      DrawnInWiden(c.id, lo, mid, lo, hi);
    }
    forall j | 0 <= j < |s.databases|
      ensures DatabaseRewritten(w.databases[j], s.databases[j], lo, hi)
    {
      var d := c.databases[j];
      assert DatabaseLoaded(d, s.databases[j], s, lo, mid);
      assert DatabaseSaved(w.databases[j], d, mid, hi);
      if s.databases[j].auth.Some? {
        assert w.databases[j].auth.value.id.value == d.id;
        if !Truthy(s.databases[j].id) {
          DrawnInWiden(d.id, lo, mid, lo, hi);
        }
      }
    }
  }

  /** Every stored record loaded and saved again, keeping length and order.
      `create` and `delete` state the same of the lists they write through
      the `Rewritten` clauses of their own contracts. */
  function Rewrite(stored: seq<ConnectionConfig>, next: nat): (r: Supplied<seq<ConnectionConfig>>)
  {
    var loaded := FromConfigs(stored, next);
    ToConfigs(loaded.value, loaded.next)
  }

  lemma RewriteKeepsRecords(stored: seq<ConnectionConfig>, next: nat)
    ensures next <= Rewrite(stored, next).next
    ensures |Rewrite(stored, next).value| == |stored|
    ensures forall i :: 0 <= i < |stored| ==> Rewritten(Rewrite(stored, next).value[i], stored[i], next, Rewrite(stored, next).next)
  {
    var loaded := FromConfigs(stored, next);
    var w := ToConfigs(loaded.value, loaded.next);
    forall i | 0 <= i < |stored|
      ensures Rewritten(w.value[i], stored[i], next, w.next)
    {
      LoadThenSave(stored[i], loaded.value[i], w.value[i], next, loaded.next, w.next);
    }
  }

  /** A well-formed database entity carries its parent's host and port. */
  ghost predicate WellFormed(c: Connection) {
    && c.id != ""
    && forall j :: 0 <= j < |c.databases| ==> c.databases[j].host == c.host && c.databases[j].port == c.port
  }

  /** `b` agrees with `a` on everything a save-then-load cycle keeps: the
      connection identifier, name, host and port, and per database its name,
      host, port, whether it has credentials and the user name and password.
      Database identifiers and auth identifiers are not kept. */
  ghost predicate SameShape(b: Connection, a: Connection) {
    && b.id == a.id
    && b.name == a.name
    && b.host == a.host
    && b.port == a.port
    && |b.databases| == |a.databases|
    && forall j :: 0 <= j < |a.databases| ==>
         && b.databases[j].name == a.databases[j].name
         && b.databases[j].host == a.databases[j].host
         && b.databases[j].port == a.databases[j].port
         && (b.databases[j].auth.Some? <==> a.databases[j].auth.Some?)
         && (a.databases[j].auth.Some? ==>
               && b.databases[j].auth.value.username == a.databases[j].auth.value.username
               && b.databases[j].auth.value.password == a.databases[j].auth.value.password)
  }

  /** Saving well-formed entities and loading them again keeps list length,
      order and shape, and every connection keeps its identifier. */
  lemma SaveThenLoad(cs: seq<Connection>, saveNext: nat, loadNext: nat)
    requires forall i :: 0 <= i < |cs| ==> WellFormed(cs[i])
    ensures |FromConfigs(ToConfigs(cs, saveNext).value, loadNext).value| == |cs|
    ensures forall i :: 0 <= i < |cs| ==> SameShape(FromConfigs(ToConfigs(cs, saveNext).value, loadNext).value[i], cs[i])
  {
    var w := ToConfigs(cs, saveNext);
    var back := FromConfigs(w.value, loadNext);
    forall i | 0 <= i < |cs|
      ensures SameShape(back.value[i], cs[i])
    {
      assert Saved(w.value[i], cs[i], saveNext, w.next);
      assert Loaded(back.value[i], w.value[i], loadNext, back.next);
      forall j | 0 <= j < |cs[i].databases|
        ensures back.value[i].databases[j].name == cs[i].databases[j].name
        ensures back.value[i].databases[j].host == cs[i].databases[j].host
        ensures back.value[i].databases[j].port == cs[i].databases[j].port
      {
        assert DatabaseSaved(w.value[i].databases[j], cs[i].databases[j], saveNext, w.next);
        assert DatabaseLoaded(back.value[i].databases[j], w.value[i].databases[j], w.value[i], loadNext, back.next);
      }
    }
  }
}

=== FILE: wrappers.dfy ===
/** Optional values and results, used for JavaScript's absent fields and for rejected promises. */
module Wrappers {

  /** An optional value: `None` stands for an absent (undefined or null) JSON field. */
  datatype Option<+T> = None | Some(value: T)

  /** The settled state of a promise: resolved with a value or rejected with an error. */
  datatype Result<+T, +E> = Ok(value: T) | Err(error: E)
}
